=== FILE: README.md ===
# Skill helper scripts, modelled in Dafny

This project models the deterministic core of three helper scripts that
ship with a collection of agent "skills":

- **ADR numbering and file naming** (`code-documentation/create_adr.py`).
  It finds the next Architecture Decision Record number from a directory
  listing. It turns a title into a slug and builds the `NNNN-slug.md` file
  name. It also covers `create_adr`'s decision to create the record or stop
  because the file exists.
- **Minimal clean design generators** (`minimal_clean/minimal_clean.py`).
  These are the colour palette per style, the spacing scale, the rule-based
  design recommendations and the `:root` custom-property block of the
  generated CSS.
- **Docstring coverage checker** (`code-documentation/docstring_coverage.py`).
  It reports every function, class and method without a docstring while
  walking a parsed module breadth-first. It also models the directory scan
  with its root filter, its totals and its exit status.

Modules:

- `Wrappers`: `Option` and `Result`.
- `Strings`: prefix and suffix tests, substring search, `split` and `join`
  on one character, ASCII lower-casing.
- `Numerals`: decimal numerals, `str(int)`, and `{:04d}` zero padding.
- `Adr`: ADR numbering and file naming.
- `Design`: the minimal clean design generators.
- `Syntax`: the parsed-module tree and the `ast.walk` order.
- `Coverage`: the docstring coverage checker.

Each operation is a pure function with a contract that relates its result
to its input. Most operations also have a partner lemma, listed in the
table below. A partner is one of three things:

- an inverse, giving a round trip;
- an invariant the operation keeps;
- an independent reference definition, such as a pre-order listing of the
  tree next to the breadth-first walk.

The directory scan is the exception. Its totals are pinned down by lemmas
about what one file or one step adds and how totals add up over a split
walk, not by a second definition.

Modelling choices:

- **Directory listing.** A directory listing is `Option<seq<string>>`, in
  the order `os.listdir` returns it. `None` means the directory does not
  exist.
- **Dictionaries.** A Python dictionary is a Dafny `map`. An absent key is a
  missing map entry. `.get(key, default)` is `Option.GetOr`.
- **Key errors.** A `KeyError` raised while the CSS template is filled in is
  a `Failure` that carries the key. It is the first key the template reads
  that is absent, in the template's order.
- **`ast.walk`.** It is a breadth-first walk over a `Node` tree. A `Node` is
  a function definition, a class definition, or any other syntax node.
  Each definition carries its line, its name, its docstring (if any) and
  its body.
- **File read and parse.** Reading and parsing a file is a `Source` value:
  unreadable, not parseable, or a tree.
- **`os.walk`.** It is the sequence of `(root, files)` steps it yields.
- **Per-file analysis in the scan.** The scan takes the per-file analysis
  and the root filter as parameters, so its lemmas hold for any analysis.
  `Coverage.ScanDirectory` is the scan with the script's own filter and
  `analyze_file`.
- **Exit status.** `sys.exit(status)` becomes the `exitStatus` field of
  the scan `Summary`.

## Model

| member | source | states |
|---|---|---|
| Strings.PrefixBefore | code-documentation/create_adr.py:77 | `name.split("-")[0]` is a prefix of the name without '-'. It is the whole name, or it is followed by the first '-'. |
| Strings.PrefixBeforeJoined | code-documentation/create_adr.py:77 | When `p` has no '-', the part before the first '-' of `p + "-" + rest` is exactly `p`. |
| Strings.Split | code-documentation/docstring_coverage.py:66 | `root.split(os.sep)` gives at least one part, and no part contains the separator. |
| Strings.JoinSplit | code-documentation/docstring_coverage.py:66 | Joining the parts of a split with the separator gives back the original text. |
| Numerals.ZeroPad | code-documentation/create_adr.py:94 | `{num:04d}` gives only digits and denotes `num`. Its length is the larger of 4 and the length of `str(num)`. It ends with `str(num)`. |
| Numerals.IntToStringRoundTrip | minimal_clean/minimal_clean.py:212-219 | Parsing `str(i)` back gives `i` for every integer, negatives included. Every character is '-' or a digit. |
| Adr.MaxNumber | code-documentation/create_adr.py:72-81 | The running maximum is above every number an entry carries. It is 0 or carried by some entry. |
| Adr.MaxNumberUnique | code-documentation/create_adr.py:72-81 | Any `m` that is an upper bound and is 0 or attained is the loop's result. |
| Adr.NextAdrNumber | code-documentation/create_adr.py:67-82 | The result is 1 for a missing directory. Otherwise it is larger than every number carried by an entry that ends in ".md" with an all-digit part before the first '-'. It is 1, or one more than such a number. |
| Adr.EmptyListingStartsAtOne | code-documentation/create_adr.py:69-72 | An empty directory and a missing one both number from 1. |
| Adr.NextNumberOrderIndependent | code-documentation/create_adr.py:73 | The next number does not depend on the order of the listing. |
| Adr.IgnoredEntryInvariant | code-documentation/create_adr.py:74-81 | Inserting an ignored entry anywhere in the listing leaves the next number unchanged. |
| Adr.IgnoredShapes | code-documentation/create_adr.py:74-78 | These names are ignored: names not ending in ".md", names without '-' (the prefix keeps ".md"), and names starting with '-' (empty prefix). |
| Strings.LowerAscii | code-documentation/create_adr.py:93 | An upper-case ASCII letter becomes the matching lower-case letter, 32 code points on. Every other character is unchanged. |
| Adr.EntryNumber | code-documentation/create_adr.py:74-79 | A number is read only from a name that ends in ".md" and starts with a digit. |
| Adr.EntryNumberShape | code-documentation/create_adr.py:74-79 | A name carries the number `n` exactly when it ends in ".md" and, at some position `k > 0`, has a '-' preceded by an all-digit run whose value is `n`. |
| Adr.EntryNumberOfShape | code-documentation/create_adr.py:74-79 | A name that ends in ".md" and has a '-' right after a leading run of digits carries the value of that run. |
| Adr.Slugify | code-documentation/create_adr.py:93 | Maps ' ' and '/' to '-' and keeps the length. A '-' appears exactly where the title had ' ', '/' or '-'. An upper-case letter becomes its lower-case letter. Every other character is kept. |
| Adr.SlugifyIdempotent | code-documentation/create_adr.py:93 | Slugifying a slug leaves it unchanged. |
| Adr.NumberedName | code-documentation/create_adr.py:94 | A digit string followed by "-", a slug and ".md" carries the digits' value and ends in "-slug.md". |
| Adr.FileName | code-documentation/create_adr.py:92-94 | Reading the number back from the generated `NNNN-slug.md` name gives the number it was made from. The name opens with the number zero-padded to four digits, followed by '-'. It ends in "-", the slugified title and ".md", and its length leaves nothing between the two. |
| Adr.NumberedAboveUnlisted | code-documentation/create_adr.py:90-98 | A name carrying a number above every listed number is not in the listing. |
| Adr.RenumberAfterCreate | code-documentation/create_adr.py:90-94 | Once the new record is in the listing, the next number is one higher. |
| Adr.CreateAdr | code-documentation/create_adr.py:84-100 | The record is always created, never the "already exists" exit. Its number is at least 1, larger than every listed number, and 1 or one past a listed number. Its file name carries that number and is not in the listing. That name is the one built from the number and the title. |
| Design.ComplementHue | minimal_clean/minimal_clean.py:68 | `(base_hue + 120) % 360` lies in [0, 360) and equals `base_hue + 120` modulo 360, negative hues included. |
| Design.HslHueRoundTrip | minimal_clean/minimal_clean.py:58 | The hue can be read back from the `hsl(h, s, l)` text. |
| Design.ColorPalette | minimal_clean/minimal_clean.py:41-76 | "monochrome" and "duotone" give their own six colour names. Any other style gives the four accent names. |
| Design.PaletteSizes | minimal_clean/minimal_clean.py:52-76 | Monochrome and duotone palettes hold six colours. Every other style holds four. |
| Design.MonochromeHues | minimal_clean/minimal_clean.py:58-59 | Both monochrome accents carry the base hue unreduced. |
| Design.DuotoneHues | minimal_clean/minimal_clean.py:67-68 | The duotone primary carries the base hue. The secondary carries the hue 120 degrees round, reduced modulo 360. |
| Design.AccentHue | minimal_clean/minimal_clean.py:70-76 | Every other style's accent carries the base hue unreduced. |
| Design.LayoutSpacing | minimal_clean/minimal_clean.py:123-142 | The scale has exactly the eight keys xxs to xxxl. |
| Design.SpacingIncreasing | minimal_clean/minimal_clean.py:133-142 | For a positive unit the scale strictly increases from xxs to xxxl. |
| Design.SpacingMultiples | minimal_clean/minimal_clean.py:133-142 | Every step from xs up is a multiple of the unit. xs is the unit. xxs is its floor half. |
| Design.Triggered | minimal_clean/minimal_clean.py:159-172 | When the fact a rule reads is missing, the rule fires exactly when it is the whitespace rule: the defaults 0 and True never fire, the ratio default 0 does. |
| Design.FiredMembership | minimal_clean/minimal_clean.py:156-174 | A rule is listed exactly when its check fires. Absent keys use the `.get` defaults: 0, 0 and True. |
| Design.FiredOrdered | minimal_clean/minimal_clean.py:156-174 | Fired rules appear in the order the checks run, each once. |
| Design.MessageInjective | minimal_clean/minimal_clean.py:159-172 | The five recommendations are pairwise distinct texts. |
| Design.Recommendations | minimal_clean/minimal_clean.py:144-174 | A rule's advice is in the list exactly when that rule fires. The list is in checking order, has at most five entries and none is repeated. |
| Design.EmptyDesignRecommendation | minimal_clean/minimal_clean.py:159-172 | An empty design gets only the whitespace advice. |
| Design.CleanDesignNoRecommendations | minimal_clean/minimal_clean.py:159-172 | A design within every threshold gets no advice. |
| Design.AllRulesFire | minimal_clean/minimal_clean.py:156-174 | When every check fires, all five rules are listed in checking order. |
| Design.SampleDesignAllRules | minimal_clean/test_skill.py:52-60 | The sample design fires all five rules in order, giving five recommendations. |
| Design.LookupAll | minimal_clean/minimal_clean.py:204-219 | Reading keys in order succeeds exactly when all are present and gives their values. Otherwise it fails on the first absent key, like a `KeyError`. |
| Design.TypographyDecls | minimal_clean/minimal_clean.py:222-236 | Succeeds exactly when every level has size, weight and line height. It then gives three declarations per level, in order. |
| Design.RootBlock | minimal_clean/minimal_clean.py:201-237 | The `:root` block succeeds exactly when every key the template reads is present. It then holds 26 declarations: colours, spacings, typography, with their values. A missing palette key fails on the first one missing. |
| Design.CssNeedsMonochrome | minimal_clean/minimal_clean.py:204-209 | Only a monochrome palette has every colour the template reads. Duotone fails on "accent". Any other style fails on "text_primary". |
| Design.DuotoneLacksAccent | minimal_clean/minimal_clean.py:208 | A duotone palette stops the template at `palette['accent']`. |
| Design.AccentLacksTextPrimary | minimal_clean/minimal_clean.py:206 | The accent palette stops the template at `palette['text_primary']`. |
| Design.SpacingHasKeys | minimal_clean/minimal_clean.py:212-219 | A generated spacing scale has every key the template reads. |
| Design.MonochromeHasKeys | minimal_clean/minimal_clean.py:204-209 | A monochrome palette has every colour key the template reads. |
| Design.DefaultsComplete | minimal_clean/minimal_clean.py:192-199 | The default palette, spacing scale and typography have every key the template reads. |
| Design.GenerateCss | minimal_clean/minimal_clean.py:192-237 | Succeeds exactly when every argument given has every key the template reads. Arguments left out are filled with the defaults, which always do. On success there are 26 declarations, and a given palette's six colours appear first, each with its `--color-*` name. |
| Design.DefaultCss | minimal_clean/minimal_clean.py:192-199 | With every argument left out, the CSS is generated without error. |
| Design.NoneMeansDefaults | minimal_clean/minimal_clean.py:192-199 | Leaving an argument out is the same as passing the default generator's output: hue 220 monochrome, base size 18, unit 8. |
| Syntax.Walk | code-documentation/docstring_coverage.py:33 | The breadth-first walk visits as many nodes as the queued trees hold. |
| Syntax.WalkVisitsAll | code-documentation/docstring_coverage.py:33 | The walk visits exactly the nodes of the queued trees, with multiplicity, compared against a pre-order listing. |
| Syntax.WalkTree | code-documentation/docstring_coverage.py:33 | Walking a tree visits the root first and every node of the tree once. |
| Syntax.ChildInTree | code-documentation/docstring_coverage.py:46 | A body item of a node in the tree is itself in the tree. |
| Coverage.Report | code-documentation/docstring_coverage.py:35-51 | A node reports one entry for an undocumented function or class plus one per undocumented function in a class body. Every entry that is not a "Method" carries the node's own line and name, and is a "Function" exactly when the node is a function. |
| Coverage.MethodReports | code-documentation/docstring_coverage.py:46-51 | One "Method" entry per undocumented function directly in the class body. |
| Coverage.MethodReportsMembership | code-documentation/docstring_coverage.py:46-51 | A "Method" entry named `Class.func` is listed exactly for each undocumented function directly in the body. |
| Coverage.AnalyzeFile | code-documentation/docstring_coverage.py:13-53 | An unreadable or unparseable file reports nothing. A parsed file reports as many entries as the independent count. |
| Coverage.WalkReportCount | code-documentation/docstring_coverage.py:33-51 | The walk's reports number one per undocumented function and class, plus one per undocumented function in a class body. |
| Coverage.CountReports | code-documentation/docstring_coverage.py:33-51 | The same count for one parsed tree. |
| Coverage.ReportMember | code-documentation/docstring_coverage.py:33 | An entry is reported exactly when some node of the tree produces it. |
| Coverage.FunctionReports | code-documentation/docstring_coverage.py:35-38 | A "Function" entry is reported exactly for an undocumented function definition at that line and name, at any depth. |
| Coverage.ClassReports | code-documentation/docstring_coverage.py:41-43 | A "Class" entry is reported exactly for an undocumented class at that line and name. |
| Coverage.MethodReportsExactly | code-documentation/docstring_coverage.py:46-51 | A "Method" entry `C.m` is reported exactly for an undocumented function `m` directly in the body of a class `C` of the tree. |
| Coverage.MethodReportedTwice | code-documentation/docstring_coverage.py:33-51 | An undocumented method is reported twice: once as a "Function" and once as a "Method". |
| Coverage.DocumentedSilent | code-documentation/docstring_coverage.py:37-42 | A documented definition produces no entry of its own, only its methods' entries. |
| Coverage.ClassReport | code-documentation/docstring_coverage.py:41-51 | An undocumented class reports itself, then its methods. |
| Coverage.ClassBlockAt | code-documentation/docstring_coverage.py:41-51 | In any visiting order, the class entry is immediately followed by its method entries, at the class's position. |
| Coverage.ClassBlock | code-documentation/docstring_coverage.py:33-51 | The same block structure, at the class's position in the walk. |
| Coverage.SkippedRoot | code-documentation/docstring_coverage.py:66-69 | A root is skipped exactly when some '.' opens one of its path components or it contains "__pycache__". |
| Coverage.FileTotals | code-documentation/docstring_coverage.py:71-82 | The count of files with findings is at most the entry total and at most the number of files. |
| Coverage.FileTotalsSingle | code-documentation/docstring_coverage.py:71-81 | A file not ending in ".py" adds nothing. A ".py" file adds its number of entries, and counts as one file exactly when that number is positive. |
| Coverage.FileTotalsAppend | code-documentation/docstring_coverage.py:71-81 | The totals over a directory's files add up over any split of the files. |
| Coverage.FilesScannedWhenMissing | code-documentation/docstring_coverage.py:71-81 | If a directory's files have any entry, at least one file is counted. |
| Coverage.Totals | code-documentation/docstring_coverage.py:64-82 | Over the whole walk, the count of files with findings is at most the entry total. |
| Coverage.TotalsSingle | code-documentation/docstring_coverage.py:64-82 | A skipped root adds nothing. A kept root adds its files' totals. |
| Coverage.TotalsAppend | code-documentation/docstring_coverage.py:64-82 | The totals of a walk add up over any split of its steps. |
| Coverage.SkippedStepInvariant | code-documentation/docstring_coverage.py:64-69 | Inserting a step with a skipped root anywhere in the walk leaves the totals unchanged. |
| Coverage.KeptStepAdds | code-documentation/docstring_coverage.py:64-82 | Inserting a step with a kept root anywhere in the walk adds exactly that step's files' totals. |
| Coverage.StepInsertion | code-documentation/docstring_coverage.py:64-82 | Inserting any step anywhere in the walk adds exactly that step's own totals, wherever it goes. |
| Coverage.ScannedWhenMissing | code-documentation/docstring_coverage.py:64-82 | If the walk has any entry, at least one file is counted. |
| Coverage.Scan | code-documentation/docstring_coverage.py:84-91 | Exit status 1 exactly when something is missing, 0 exactly when nothing is. The files counted are at most the entries, and none are counted exactly when nothing is missing. |
| Coverage.ScanAppend | code-documentation/docstring_coverage.py:59-85 | The missing total and the file count of a walk are the sums over any split of the walk. |
| Coverage.ScanFailsAppend | code-documentation/docstring_coverage.py:87-91 | A walk exits 1 exactly when one of its parts would. |
| Coverage.ScanSingle | code-documentation/docstring_coverage.py:64-91 | Scanning one directory: a skipped root prints (0, 0, exit 0). A kept root prints its files' entry total and count of files with entries, and exits 1 exactly when that total is positive. With ScanAppend this fixes the summary of every walk. |
| Coverage.ScanDirectory | code-documentation/docstring_coverage.py:55-91 | The script's scan prints as total the entries of every ".py" file under a kept root, and as file count the number of those files with entries. It exits 1 exactly when something is missing and 0 exactly when nothing is. If every root starts with '.', it reports nothing and exits 0. |
| Coverage.DotRootsScanNothing | code-documentation/docstring_coverage.py:64-67 | A walk whose every root starts with '.' gives (0, 0, exit 0) under the script's filter. |
| Coverage.HiddenPartIff | code-documentation/docstring_coverage.py:66 | A root has a part starting with '.' exactly when some '.' opens a path component. |
| Coverage.AllSkippedScansNothing | code-documentation/docstring_coverage.py:64-69 | If every root is skipped, the scan reports nothing and exits 0. |
| Coverage.DefaultTargetScansNothing | code-documentation/docstring_coverage.py:64-67 | Under the default target ".", every root is "." or "./…", so the scan as written reports nothing and exits 0. |
| Coverage.IntendedSkipsLess | code-documentation/docstring_coverage.py:65-69 | The corrected filter skips only roots the written filter skips. |
| Coverage.IntendedKeepsCurrentDirectory | code-documentation/docstring_coverage.py:65-67 | The corrected filter does not skip the root ".". |
| Coverage.IntendedIgnoresCurrentDirectory | code-documentation/docstring_coverage.py:65-69 | The corrected filter judges "./rel" exactly as it judges "rel". |
| Coverage.OneUndocumentedFunction | code-documentation/docstring_coverage.py:33-38 | A module whose only statement is a function without a docstring reports exactly one entry. |
| Coverage.DotRootCounterexample | code-documentation/docstring_coverage.py:64-91 | Under the root ".", a ".py" file with `n > 0` entries gives (0, 0, exit 0) in the scan as written. The corrected scan gives (n, 1, exit 1). |

## Left out

- The `deepagents-creator/examples` scripts are not part of this model. They wrap shell commands, HTTP requests, pandas and scipy analyses, language-model calls and interactive `input()` menus around an external agent library. None of that is part of the three modelled scripts.
- `create_typography_system` is not modelled as a function. It computes sizes with floating point (`1.25 ** k`, `int(...)`). Only its value for the default base size 18 enters the model, as the constant `Design.DefaultTypography`, with each value rendered the way Python prints it.
- Design.TypographyDecls: typography values passed in by a caller are taken as already-rendered strings. The source formats ints and floats with `str()` inside the f-string (weight 700 prints as "700"). That formatting is not modelled for caller-supplied values, only for the default table.
- `analyze_whitespace_usage` is left out. It ignores its argument and returns a fixed dictionary.
- The generated CSS after the `:root` block is left out, as are the block's comments and whitespace. That part is fixed text that does not depend on the arguments. `Design.RootBlock` models the declarations as (name, value) pairs, not as the final string.
- File system and console effects are left out: `os.walk`, `os.listdir`, `os.path.exists`, `os.makedirs`, `open`, writing the ADR file, `print`, and `os.path.abspath`. Their results are parameters of the model.
- The ADR template text and `datetime.now()` are left out. The date is a clock reading and the template is fixed text.
- The I/O error exit while writing the ADR is left out.
- The `__main__` blocks are left out: argument handling, the `isdir` check of the scan target, and the demo output.
- Adr.EntryNumber: `str.isdigit` also accepts non-ASCII digits, for which `int()` may raise `ValueError`, which the source catches. The model accepts only ASCII digits '0'-'9'.
- Adr.CreateAdr: `os.path.exists(filepath)` is modelled as exact, case-sensitive membership of the file name in the listing. On a case-insensitive file system, a listing holding "0003-Foo.MD" with a highest number of 2 makes the script exit 1 on title "foo". The model says the record is always created.
- Adr.Slugify: `str.lower` folds all of Unicode. The model lower-cases ASCII letters only.
- Design.Triggered: the whitespace threshold compares a real number with 3/10. Binary floating point rounding near 0.3 is not modelled.
- Design.DesignFacts: the dictionary values are taken as ints, reals and bools. The Python comparisons of other value types (strings, None) are not modelled.
- Coverage.Report: `ast.get_docstring` takes the first statement's string literal and strips it. The model takes the docstring as already extracted, so an empty or whitespace-only docstring must arrive as `Some("")`. The model does not distinguish async from plain function definitions, since both are checked alike.
- Coverage.AnalyzeFile: only unreadable files and syntax errors are mapped to an empty report, as the source catches them. `ast.parse` raises `ValueError` on a NUL byte in the source (Python 3.11 and earlier). Nothing catches that error, so the real scan aborts. The model has no such outcome.
- Coverage.SkippedRoot: `os.sep` is taken to be '/'.

## Findings

| source | as written | input that shows it | evidently intended | confidence | as-written member | corrected member |
|---|---|---|---|---|---|---|
| code-documentation/docstring_coverage.py:66-67 | The filter skips every root that has a path part starting with '.'. The part "." counts, and so does "..". | `python3 docstring_coverage.py` with the default target ".": `os.walk(".")` yields roots "." and "./…". Every root is skipped, so nothing is scanned, the total is 0 and the exit status is 0, even with undocumented code present. Coverage.DotRootCounterexample gives a concrete case. | Skip hidden directories only: parts that start with '.' but are not "." or "..". A file "./m.py" with one undocumented function should then give one report and exit status 1. | not executed | Coverage.DefaultTargetScansNothing | Coverage.IntendedIgnoresCurrentDirectory |

=== FILE: adr.dfy ===
/** Architecture Decision Record numbering and file naming
    (code-documentation/create_adr.py).

    A directory listing is the sequence of entry names `os.listdir` returns;
    `None` stands for a directory that does not exist. An entry is numbered
    when it ends in ".md" and its text before the first '-' is a non-empty
    run of digits; every other entry is ignored. */
module Adr {
  import opened Wrappers
  import opened Strings
  import opened Numerals

  /** Width of the zero-padded number in a file name (`{num:04d}`). */
  const NumberWidth: nat := 4

  /** The number an entry contributes to the numbering, if any: a numbered
      entry is a Markdown file that opens with a run of digits followed by
      a '-', and its number is the value of that run. */
  function EntryNumber(name: string): (r: Option<nat>)
    ensures r.Some? ==> EndsWith(name, ".md")
    ensures r.Some? ==> |name| > 4 && IsDigit(name[0])
  {
    if EndsWith(name, ".md") then
      var numStr := PrefixBefore(name, '-');
      if IsDigits(numStr) then
        DigitRunBeforeDash(name);
        Some(DigitsValue(numStr))
      else None
    else None
  }

  /** `name` opens with a digit run of value `n` that ends, at index `k`,
      in a '-'. */
  predicate NumberedAt(name: string, k: nat, n: nat) {
    0 < k < |name| && name[k] == '-' && IsDigits(name[..k]) && DigitsValue(name[..k]) == n
  }

  /** A Markdown name whose text before the first '-' is all digits does
      contain that '-'. */
  lemma DigitRunBeforeDash(name: string)
    requires EndsWith(name, ".md") && IsDigits(PrefixBefore(name, '-'))
    ensures var p := PrefixBefore(name, '-');
      0 < |p| < |name| && name[|p|] == '-' && name[..|p|] == p
  {
    var p := PrefixBefore(name, '-');
    assert p <= name;
    assert IsDigit(p[|p| - 1]) && !IsDigit(name[|name| - 1]);
  }

  /** The prefix rule in other words: a name is numbered with `n` exactly
      when it is a Markdown file that opens with a digit run of value `n`
      followed by a '-' (the digits hold no '-', so that '-' is the first). */
  lemma EntryNumberShape(name: string, n: nat)
    ensures EntryNumber(name) == Some(n) <==> EndsWith(name, ".md") && exists k :: NumberedAt(name, k, n)
  {
    if EntryNumber(name) == Some(n) {
      var p := PrefixBefore(name, '-');
      DigitRunBeforeDash(name);
      assert NumberedAt(name, |p|, n);
    }
    if EndsWith(name, ".md") && exists k :: NumberedAt(name, k, n) {
      var k :| NumberedAt(name, k, n);
      EntryNumberOfShape(name, k);
    }
  }

  lemma EntryNumberOfShape(name: string, k: nat)
    requires EndsWith(name, ".md")
    requires 0 < k < |name| && name[k] == '-' && IsDigits(name[..k])
    ensures EntryNumber(name) == Some(DigitsValue(name[..k]))
  {
    var p := name[..k];
    assert '-' !in p by {
      assert forall i :: 0 <= i < |p| ==> IsDigit(p[i]);
    }
    PrefixBeforeUnique(name, '-', p);
  }

  /** Every numbered entry of `names` carries a number below `bound`. */
  ghost predicate AllBelow(names: seq<string>, bound: int) {
    forall i :: 0 <= i < |names| && EntryNumber(names[i]).Some? ==> EntryNumber(names[i]).value < bound
  }

  /** Some entry of `names` carries exactly `n`. */
  ghost predicate Attained(names: seq<string>, n: nat) {
    exists i :: 0 <= i < |names| && EntryNumber(names[i]) == Some(n)
  }

  /** The running maximum of the source's loop over the listing, starting
      from 0: the largest number any entry carries, or 0 if none does. */
  function MaxNumber(names: seq<string>): (m: nat)
    ensures AllBelow(names, m + 1)
    ensures m == 0 || Attained(names, m)
    decreases |names|
  {
    if |names| == 0 then 0
    else
      var init := names[..|names| - 1];
      var last := names[|names| - 1];
      var soFar := MaxNumber(init);
      assert forall i :: 0 <= i < |init| ==> names[i] == init[i];
      match EntryNumber(last)
      case None => soFar
      case Some(v) => if v > soFar then v else soFar
  }

  /** `get_next_adr_number`: one more than the largest number in the
      listing; 1 for a missing directory. */
  function NextAdrNumber(listing: Option<seq<string>>): (r: nat)
    ensures r >= 1
    ensures listing.None? ==> r == 1
    ensures listing.Some? ==> AllBelow(listing.value, r)
    ensures listing.Some? ==> r == 1 || Attained(listing.value, r - 1)
  {
    match listing
    case None => 1
    case Some(names) => MaxNumber(names) + 1
  }

  /** The two defining properties of the maximum determine it. */
  lemma MaxNumberUnique(names: seq<string>, m: nat)
    requires AllBelow(names, m + 1)
    requires m == 0 || Attained(names, m)
    ensures MaxNumber(names) == m
  {
  }

  /** An empty listing numbers from 1, just like a missing directory. */
  lemma EmptyListingStartsAtOne()
    ensures NextAdrNumber(Some([])) == 1
    ensures NextAdrNumber(None) == 1
  {
  }

  /** The numbering does not depend on the order `os.listdir` returns. */
  lemma NextNumberOrderIndependent(a: seq<string>, b: seq<string>)
    requires multiset(a) == multiset(b)
    ensures NextAdrNumber(Some(a)) == NextAdrNumber(Some(b))
  {
    var m := MaxNumber(a);
    forall i | 0 <= i < |b| && EntryNumber(b[i]).Some?
      ensures EntryNumber(b[i]).value < m + 1
    {
      assert b[i] in multiset(a);
      var j :| 0 <= j < |a| && a[j] == b[i];
    }
    if m != 0 {
      var j :| 0 <= j < |a| && EntryNumber(a[j]) == Some(m);
      assert a[j] in multiset(b);
      var i :| 0 <= i < |b| && b[i] == a[j];
    }
    MaxNumberUnique(b, m);
  }

  /** Inserting an ignored entry anywhere in the listing never changes the
      next number. */
  lemma IgnoredEntryInvariant(names: seq<string>, k: nat, extra: string)
    requires k <= |names|
    requires EntryNumber(extra).None?
    ensures NextAdrNumber(Some(names[..k] + [extra] + names[k..])) == NextAdrNumber(Some(names))
  {
    var longer := names[..k] + [extra] + names[k..];
    var m := MaxNumber(names);
    assert |longer| == |names| + 1;
    assert forall i :: 0 <= i < k ==> longer[i] == names[i];
    assert longer[k] == extra;
    assert forall i :: k < i < |longer| ==> longer[i] == names[i - 1];
    assert AllBelow(longer, m + 1) by {
      forall i | 0 <= i < |longer| && EntryNumber(longer[i]).Some?
        ensures EntryNumber(longer[i]).value < m + 1
      {
        if i < k {
          assert EntryNumber(longer[i]) == EntryNumber(names[i]);
        } else if i > k {
          assert EntryNumber(longer[i]) == EntryNumber(names[i - 1]);
        }
      }
    }
    if m != 0 {
      var j :| 0 <= j < |names| && EntryNumber(names[j]) == Some(m);
      if j < k {
        assert EntryNumber(longer[j]) == Some(m);
      } else {
        assert EntryNumber(longer[j + 1]) == Some(m);
      }
    }
    MaxNumberUnique(longer, m);
  }

  /** Names the prefix rule ignores: not Markdown, no '-' at all (so the
      whole name, with its ".md", is the prefix), or a leading '-' (empty
      prefix). */
  lemma IgnoredShapes(name: string)
    ensures !EndsWith(name, ".md") ==> EntryNumber(name).None?
    ensures '-' !in name ==> EntryNumber(name).None?
    ensures |name| > 0 && name[0] == '-' ==> EntryNumber(name).None?
  {
    if EndsWith(name, ".md") && '-' !in name {
      var p := PrefixBefore(name, '-');
      assert p == name;
      assert p[|p| - 3] == '.';
    }
  }

  /** `title.lower().replace(" ", "-").replace("/", "-")`, one character. */
  function SlugChar(c: char): char {
    if c == ' ' || c == '/' then '-' else LowerAscii(c)
  }

  /** The file-name-safe form of a title. */
  function Slugify(title: string): (slug: string)
    ensures |slug| == |title|
    ensures forall i :: 0 <= i < |slug| ==> slug[i] != ' ' && slug[i] != '/' && !('A' <= slug[i] <= 'Z')
    ensures forall i :: 0 <= i < |slug| ==> (slug[i] == '-' <==> title[i] in {' ', '/', '-'})
    ensures forall i :: 0 <= i < |slug| && !('A' <= title[i] <= 'Z') && title[i] != ' ' && title[i] != '/' ==> slug[i] == title[i]
    ensures forall i :: 0 <= i < |slug| && 'A' <= title[i] <= 'Z' ==> slug[i] as int == title[i] as int + 32
  {
    if |title| == 0 then "" else [SlugChar(title[0])] + Slugify(title[1..])
  }

  /** Slugifying a slug changes nothing. */
  lemma SlugifyIdempotent(title: string)
    ensures Slugify(Slugify(title)) == Slugify(title)
  {
    var s := Slugify(title);
    assert forall i :: 0 <= i < |s| ==> Slugify(s)[i] == s[i];
  }

  /** `f"{num:04d}-{safe_title}.md"`. Round trip: the generated name is
      numbered, under the prefix rule, with exactly `num` (leading zeros
      included), and it ends with the slug of the title. The '-' sits right
      after the zero-padded number, and the length leaves room for nothing
      between that '-' and the slug. */
  function FileName(num: nat, title: string): (f: string)
    ensures EntryNumber(f) == Some(num)
    ensures EndsWith(f, "-" + Slugify(title) + ".md")
    ensures NumberedAt(f, |ZeroPad(num, NumberWidth)|, num)
    ensures |f| == |ZeroPad(num, NumberWidth)| + |title| + 4
  {
    var digits := ZeroPad(num, NumberWidth);
    assert (digits + "-" + (Slugify(title) + ".md"))[..|digits|] == digits;
    NumberedName(digits, Slugify(title));
    digits + "-" + (Slugify(title) + ".md")
  }

  /** A digit run, a '-', and a Markdown name: numbered with the run. */
  lemma NumberedName(digits: string, slug: string)
    requires IsDigits(digits)
    ensures var f := digits + "-" + (slug + ".md");
      EntryNumber(f) == Some(DigitsValue(digits)) && EndsWith(f, "-" + slug + ".md")
  {
    var rest := slug + ".md";
    var f := digits + "-" + rest;
    assert f[..|digits|] == digits && f[|digits|] == '-';
    assert f[|f| - 3..] == ".md";
    assert f[|digits|..] == "-" + slug + ".md";
    EntryNumberOfShape(f, |digits|);
  }

  /** Adding the newly created record to the directory makes the next
      number one higher. */
  lemma RenumberAfterCreate(names: seq<string>, title: string)
    ensures NextAdrNumber(Some(names + [FileName(NextAdrNumber(Some(names)), title)]))
         == NextAdrNumber(Some(names)) + 1
  {
    var n := NextAdrNumber(Some(names));
    var longer := names + [FileName(n, title)];
    forall i | 0 <= i < |longer| && EntryNumber(longer[i]).Some?
      ensures EntryNumber(longer[i]).value < n + 1
    {
      if i < |names| {
        assert longer[i] == names[i];
      }
    }
    assert EntryNumber(longer[|names|]) == Some(n);
    MaxNumberUnique(longer, n);
  }

  /** A name numbered at or above every listed number is not listed. */
  lemma NumberedAboveUnlisted(listing: seq<string>, num: nat, name: string)
    requires AllBelow(listing, num)
    requires EntryNumber(name) == Some(num)
    ensures name !in listing
  {
  }

  /** What lines 90-100 of `create_adr` decide: the new record, or the
      error exit when its file already exists. */
  datatype Creation = Created(number: nat, fileName: string) | AlreadyExists(fileName: string)

  /** `create_adr` up to writing the file, on the listing of the ADR
      directory after `os.makedirs` has ensured it exists. The existence
      check can never fire: the new name carries the new number, and every
      numbered entry already listed carries a smaller one. */
  function CreateAdr(listing: seq<string>, title: string): (r: Creation)
    ensures r.Created? && r.number >= 1
    ensures AllBelow(listing, r.number)
    ensures r.number == 1 || Attained(listing, r.number - 1)
    ensures EntryNumber(r.fileName) == Some(r.number)
    ensures r.fileName !in listing
    ensures r.fileName == FileName(r.number, title)
  {
    var num := NextAdrNumber(Some(listing));
    var name := FileName(num, title);
    NumberedAboveUnlisted(listing, num, name);
    if name in listing then AlreadyExists(name) else Created(num, name)
  }
}

=== FILE: coverage.dfy ===
/** The docstring-coverage checker (code-documentation/docstring_coverage.py):
    which definitions of a parsed file are reported as missing a docstring,
    and how a directory scan totals the reports into an exit status. */
module Coverage {
  import opened Wrappers
  import opened Strings
  import opened Syntax

  /** The three kinds of report, printed by the source as "Function",
      "Class" and "Method". */
  datatype Kind = FunctionItem | ClassItem | MethodItem

  /** One `(type_name, line_number, name)` tuple of `analyze_file`. */
  datatype Missing = Missing(kind: Kind, line: nat, name: string)

  /** `not ast.get_docstring(node)`: no docstring, or an empty one. */
  predicate Undocumented(doc: Option<string>) {
    doc.None? || doc.value == ""
  }

  predicate UndocumentedFunction(n: Node) {
    n.Function? && Undocumented(n.doc)
  }

  predicate UndocumentedClass(n: Node) {
    n.Class? && Undocumented(n.doc)
  }

  // ---------------------------------------------------------------------
  // analyze_file

  /** The "Method" reports for the items of a class body: only the body's
      own function definitions are looked at, not anything nested in them. */
  function MethodReports(className: string, body: seq<Node>): (r: seq<Missing>)
    ensures |r| == Sum(body, FunctionWeight)
    ensures forall e :: e in r ==> e.kind == MethodItem
  {
    if |body| == 0 then []
    else
      var item := body[0];
      var rest := MethodReports(className, body[1..]);
      if UndocumentedFunction(item) then [Missing(MethodItem, item.line, className + "." + item.name)] + rest
      else rest
  }

  /** A "Method" entry is listed exactly for each undocumented function
      directly in the body, named by the class and the function. */
  lemma {:induction false} MethodReportsMembership(className: string, body: seq<Node>)
    ensures forall m :: m in body && UndocumentedFunction(m) ==>
      Missing(MethodItem, m.line, className + "." + m.name) in MethodReports(className, body)
    ensures forall e :: e in MethodReports(className, body) ==>
      (exists m :: m in body && UndocumentedFunction(m) && e == Missing(MethodItem, m.line, className + "." + m.name))
    decreases |body|
  {
    if |body| > 0 {
      MethodReportsMembership(className, body[1..]);
      assert forall m :: m in body ==> m == body[0] || m in body[1..];
      assert forall m :: m in body[1..] ==> m in body;
    }
  }

  /** What one iteration of the loop over `ast.walk(tree)` appends for `n`. */
  function Report(n: Node): (r: seq<Missing>)
    ensures |r| == FunctionWeight(n) + ClassWeight(n) + MethodWeight(n)
    ensures forall e :: e in r && e.kind != MethodItem ==>
      !n.Other? && e.line == n.line && e.name == n.name && (e.kind == FunctionItem <==> n.Function?)
  {
    match n
    case Function(name, line, doc, _) =>
      if Undocumented(doc) then [Missing(FunctionItem, line, name)] else []
    case Class(name, line, doc, body) =>
      (if Undocumented(doc) then [Missing(ClassItem, line, name)] else []) + MethodReports(name, body)
    case Other(_) => []
  }

  /** The reports for a sequence of visited nodes, in visiting order. */
  function ReportAll(ns: seq<Node>): seq<Missing> {
    if |ns| == 0 then [] else Report(ns[0]) + ReportAll(ns[1..])
  }

  /** The parse step of `analyze_file`: a file it cannot read, one that
      does not parse, or its syntax tree. */
  datatype Source = Unreadable | Malformed | Parsed(tree: Node)

  /** `analyze_file` on a parsed tree: the reports of every node the walk
      visits, in walk order. */
  function AnalyzeTree(tree: Node): seq<Missing> {
    ReportAll(Walk([tree]))
  }

  /** `analyze_file`: a file that cannot be read or parsed is skipped with
      no report. */
  function AnalyzeFile(src: Source): (r: seq<Missing>)
    ensures !src.Parsed? ==> r == []
    ensures src.Parsed? ==> |r| == UndocumentedTotal(Nodes(src.tree))
  {
    match src
    case Unreadable => []
    case Malformed => []
    case Parsed(tree) =>
      CountReports(tree);
      AnalyzeTree(tree)
  }

  // ---------------------------------------------------------------------
  // Counting, independently of the walk

  function Sum(ns: seq<Node>, w: Node -> nat): nat {
    if |ns| == 0 then 0 else w(ns[0]) + Sum(ns[1..], w)
  }

  lemma {:induction false} SumAppend(a: seq<Node>, b: seq<Node>, w: Node -> nat)
    ensures Sum(a + b, w) == Sum(a, w) + Sum(b, w)
    decreases |a|
  {
    if |a| == 0 {
      assert a + b == b;
    } else {
      assert (a + b)[0] == a[0];
      assert (a + b)[1..] == a[1..] + b;
      SumAppend(a[1..], b, w);
    }
  }

  function FunctionWeight(n: Node): nat {
    if UndocumentedFunction(n) then 1 else 0
  }

  function ClassWeight(n: Node): nat {
    if UndocumentedClass(n) then 1 else 0
  }

  /** The undocumented functions placed directly in a class body. */
  function MethodWeight(n: Node): nat {
    if n.Class? then Sum(n.body, FunctionWeight) else 0
  }

  /** Undocumented functions, plus undocumented classes, plus undocumented
      functions placed directly in a class body, over a list of nodes. */
  function UndocumentedTotal(ns: seq<Node>): nat {
    Sum(ns, FunctionWeight) + Sum(ns, ClassWeight) + Sum(ns, MethodWeight)
  }

  lemma TotalAppend(a: seq<Node>, b: seq<Node>)
    ensures UndocumentedTotal(a + b) == UndocumentedTotal(a) + UndocumentedTotal(b)
  {
    SumAppend(a, b, FunctionWeight);
    SumAppend(a, b, ClassWeight);
    SumAppend(a, b, MethodWeight);
  }

  /** One node's report holds one entry per weight it carries. */
  lemma ReportWeight(n: Node)
    ensures |Report(n)| == UndocumentedTotal([n])
  {
    assert [n][1..] == [];
    assert Sum([n], FunctionWeight) == FunctionWeight(n);
    assert Sum([n], ClassWeight) == ClassWeight(n);
    assert Sum([n], MethodWeight) == MethodWeight(n);
  }

  lemma {:induction false} WalkReportCount(queue: seq<Node>)
    ensures |ReportAll(Walk(queue))| == UndocumentedTotal(NodesAll(queue))
    decreases SizeAll(queue)
  {
    if |queue| > 0 {
      var first := queue[0];
      var next := queue[1..] + Children(first);
      SizeAllAppend(queue[1..], Children(first));
      WalkReportCount(next);
      assert |ReportAll(Walk(queue))| == |Report(first)| + |ReportAll(Walk(next))| by {
        assert Walk(queue) == [first] + Walk(next);
        assert ([first] + Walk(next))[1..] == Walk(next);
      }
      ReportWeight(first);
      WalkTotalStep(queue);
    }
  }

  /** The total over a queue's trees is the first node's own, plus the
      total over the queue the walk continues with. */
  lemma WalkTotalStep(queue: seq<Node>)
    requires |queue| > 0
    ensures UndocumentedTotal(NodesAll(queue))
         == UndocumentedTotal([queue[0]]) + UndocumentedTotal(NodesAll(queue[1..] + Children(queue[0])))
  {
    var first := queue[0];
    var below := NodesAll(Children(first));
    var after := NodesAll(queue[1..]);
    assert NodesAll(queue) == ([first] + below) + after;
    assert NodesAll(queue[1..] + Children(first)) == after + below by {
      NodesAllAppend(queue[1..], Children(first));
    }
    TotalAppend([first] + below, after);
    TotalAppend([first], below);
    TotalAppend(after, below);
  }

  /** The number of reports for a tree: one per undocumented function
      anywhere, one per undocumented class, and one more per undocumented
      function placed directly in a class body, which is thus reported
      twice. */
  lemma CountReports(t: Node)
    ensures |AnalyzeTree(t)| == UndocumentedTotal(Nodes(t))
  {
    WalkReportCount([t]);
    assert [t][1..] == [];
    assert NodesAll([t]) == Nodes(t) + NodesAll([]);
    assert Nodes(t) + NodesAll([]) == Nodes(t);
  }

  // ---------------------------------------------------------------------
  // Which reports appear

  /** A report occurs for a visited sequence exactly when it occurs in the
      report of one of its nodes. */
  lemma {:induction false} ReportAllMember(ns: seq<Node>, e: Missing)
    ensures e in ReportAll(ns) <==> exists n :: n in ns && e in Report(n)
    decreases |ns|
  {
    if |ns| > 0 {
      ReportAllMember(ns[1..], e);
      if e in ReportAll(ns) {
        if e !in Report(ns[0]) {
          var n :| n in ns[1..] && e in Report(n);
          assert n in ns;
        }
      }
      if exists n :: n in ns && e in Report(n) {
        var n :| n in ns && e in Report(n);
        if n != ns[0] {
          assert n in ns[1..];
        }
      }
    }
  }

  /** A report occurs for a tree exactly when one of the tree's nodes
      produces it: the walk's order does not matter. */
  lemma ReportMember(t: Node, e: Missing)
    ensures e in AnalyzeTree(t) <==> exists n :: n in Nodes(t) && e in Report(n)
  {
    WalkTree(t);
    var w := Walk([t]);
    ReportAllMember(w, e);
    assert forall n :: n in w <==> n in multiset(w);
    assert forall n :: n in Nodes(t) <==> n in multiset(Nodes(t));
  }

  /** "Function" is reported, with its line and bare name, for exactly the
      undocumented function definitions of the tree, however deeply nested
      (inside a class, a method, a block). */
  lemma FunctionReports(t: Node, line: nat, name: string)
    ensures Missing(FunctionItem, line, name) in AnalyzeTree(t) <==>
      exists n :: n in Nodes(t) && UndocumentedFunction(n) && n.line == line && n.name == name
  {
    var e := Missing(FunctionItem, line, name);
    ReportMember(t, e);
    if e in AnalyzeTree(t) {
      var n :| n in Nodes(t) && e in Report(n);
      assert UndocumentedFunction(n) && n.line == line && n.name == name;
    }
    if exists n :: n in Nodes(t) && UndocumentedFunction(n) && n.line == line && n.name == name {
      var n :| n in Nodes(t) && UndocumentedFunction(n) && n.line == line && n.name == name;
      assert e in Report(n);
    }
  }

  /** "Class" is reported for exactly the undocumented classes of the tree. */
  lemma ClassReports(t: Node, line: nat, name: string)
    ensures Missing(ClassItem, line, name) in AnalyzeTree(t) <==>
      exists n :: n in Nodes(t) && UndocumentedClass(n) && n.line == line && n.name == name
  {
    var e := Missing(ClassItem, line, name);
    ReportMember(t, e);
    if e in AnalyzeTree(t) {
      var n :| n in Nodes(t) && e in Report(n);
      assert UndocumentedClass(n) && n.line == line && n.name == name;
    }
    if exists n :: n in Nodes(t) && UndocumentedClass(n) && n.line == line && n.name == name {
      var n :| n in Nodes(t) && UndocumentedClass(n) && n.line == line && n.name == name;
      assert e in Report(n);
    }
  }

  /** "Method" is reported, as `Class.method`, for exactly the undocumented
      functions that are direct items of some class body; a function nested
      deeper, inside a method, gets no "Method" report. */
  lemma MethodReportsExactly(t: Node, line: nat, qualified: string)
    ensures Missing(MethodItem, line, qualified) in AnalyzeTree(t) <==>
      exists c, m :: c in Nodes(t) && c.Class? && m in c.body && UndocumentedFunction(m)
        && m.line == line && qualified == c.name + "." + m.name
  {
    var e := Missing(MethodItem, line, qualified);
    ReportMember(t, e);
    if e in AnalyzeTree(t) {
      var c :| c in Nodes(t) && e in Report(c);
      assert c.Class?;
      assert e in MethodReports(c.name, c.body);
      MethodReportsMembership(c.name, c.body);
      var m :| m in c.body && UndocumentedFunction(m) && e == Missing(MethodItem, m.line, c.name + "." + m.name);
    }
    if exists c, m :: c in Nodes(t) && c.Class? && m in c.body && UndocumentedFunction(m)
        && m.line == line && qualified == c.name + "." + m.name {
      var c, m :| c in Nodes(t) && c.Class? && m in c.body && UndocumentedFunction(m)
        && m.line == line && qualified == c.name + "." + m.name;
      MethodReportsMembership(c.name, c.body);
      assert e in MethodReports(c.name, c.body);
      assert e in Report(c);
    }
  }

  /** An undocumented function directly in a class body is reported twice:
      once as a "Function" by the walk and once as a "Method" of its class. */
  lemma MethodReportedTwice(t: Node, c: Node, m: Node)
    requires c in Nodes(t) && c.Class? && m in c.body && UndocumentedFunction(m)
    ensures Missing(FunctionItem, m.line, m.name) in AnalyzeTree(t)
    ensures Missing(MethodItem, m.line, c.name + "." + m.name) in AnalyzeTree(t)
  {
    ChildInTree(t, c, m);
    FunctionReports(t, m.line, m.name);
    MethodReportsExactly(t, m.line, c.name + "." + m.name);
  }

  /** Documented definitions produce no report of their own. */
  lemma DocumentedSilent(n: Node)
    requires (n.Function? || n.Class?) && !Undocumented(n.doc)
    ensures forall e :: e in Report(n) ==> e.kind == MethodItem
  {
  }

  lemma {:induction false} ReportAllAppend(a: seq<Node>, b: seq<Node>)
    ensures ReportAll(a + b) == ReportAll(a) + ReportAll(b)
    decreases |a|
  {
    if |a| == 0 {
      assert a + b == b;
    } else {
      assert (a + b)[0] == a[0];
      assert (a + b)[1..] == a[1..] + b;
      ReportAllAppend(a[1..], b);
    }
  }

  lemma ReportAllSplit(w: seq<Node>, k: nat)
    requires k < |w|
    ensures ReportAll(w) == ReportAll(w[..k]) + ReportAll(w[k..])
  {
    assert w == w[..k] + w[k..];
    ReportAllAppend(w[..k], w[k..]);
  }

  lemma ReportAllFrom(w: seq<Node>, k: nat)
    requires k < |w|
    ensures ReportAll(w[k..]) == Report(w[k]) + ReportAll(w[k + 1..])
  {
    assert w[k..][0] == w[k] && w[k..][1..] == w[k + 1..];
  }

  /** An undocumented class reports itself, then its methods. */
  lemma ClassReport(c: Node)
    requires UndocumentedClass(c)
    ensures Report(c) == [Missing(ClassItem, c.line, c.name)] + MethodReports(c.name, c.body)
  {
  }

  /** In any visiting order, an undocumented class at position `k`
      contributes its "Class" entry followed by its "Method" entries,
      between the reports of the nodes before and after it. */
  lemma ClassBlockAt(w: seq<Node>, k: nat)
    requires k < |w| && UndocumentedClass(w[k])
    ensures var c := w[k];
      ReportAll(w) == ReportAll(w[..k]) + [Missing(ClassItem, c.line, c.name)]
        + MethodReports(c.name, c.body) + ReportAll(w[k + 1..])
  {
    var c := w[k];
    ReportAllSplit(w, k);
    ReportAllFrom(w, k);
    ClassReport(c);
    Regroup(ReportAll(w[..k]), [Missing(ClassItem, c.line, c.name)],
      MethodReports(c.name, c.body), ReportAll(w[k + 1..]));
  }

  lemma Regroup<T>(a: seq<T>, b: seq<T>, c: seq<T>, d: seq<T>)
    ensures a + (b + c + d) == a + b + c + d
  {
  }

  /** The report of an undocumented class is its "Class" entry immediately
      followed by its "Method" entries, at the class's place in the walk. */
  lemma ClassBlock(t: Node, k: nat)
    requires k < |Walk([t])| && UndocumentedClass(Walk([t])[k])
    ensures var w := Walk([t]); var c := w[k];
      AnalyzeTree(t) == ReportAll(w[..k]) + [Missing(ClassItem, c.line, c.name)]
        + MethodReports(c.name, c.body) + ReportAll(w[k + 1..])
  {
    ClassBlockAt(Walk([t]), k);
  }

  // ---------------------------------------------------------------------
  // scan_directory

  /** A file of a directory, by name, with what reading and parsing it gives. */
  datatype SourceFile = SourceFile(name: string, source: Source)

  /** One `(root, dirs, files)` triple of `os.walk`. */
  datatype WalkStep = WalkStep(root: string, files: seq<SourceFile>)

  /** The totals `scan_directory` prints and the status it exits with. */
  datatype Summary = Summary(totalMissing: nat, filesScanned: nat, exitStatus: int)

  /** Some '/'-separated component of `root` starts with '.'. */
  predicate HasHiddenPart(root: string) {
    var parts := Split(root, '/');
    exists i :: 0 <= i < |parts| && StartsWith(parts[i], ".")
  }

  /** Some '.' opens a component: it is the first character, or follows a '/'. */
  predicate DotOpensComponent(root: string) {
    exists i :: 0 <= i < |root| && root[i] == '.' && (i == 0 || root[i - 1] == '/')
  }

  /** One '/' peeled off: the parts are the text before it and the parts
      of the rest. */
  lemma HiddenPartStep(root: string)
    requires |PrefixBefore(root, '/')| < |root|
    ensures var p := PrefixBefore(root, '/');
      HasHiddenPart(root) <==> StartsWith(p, ".") || HasHiddenPart(root[|p| + 1..])
  {
    var p := PrefixBefore(root, '/');
    var rest := root[|p| + 1..];
    var parts := Split(root, '/');
    var restParts := Split(rest, '/');
    assert parts == [p] + restParts;
    if HasHiddenPart(root) {
      var i :| 0 <= i < |parts| && StartsWith(parts[i], ".");
      if i > 0 {
        assert StartsWith(restParts[i - 1], ".");
      }
    }
    if HasHiddenPart(rest) {
      var j :| 0 <= j < |restParts| && StartsWith(restParts[j], ".");
      assert StartsWith(parts[j + 1], ".");
    }
    if StartsWith(p, ".") {
      assert StartsWith(parts[0], ".");
    }
  }

  /** The same peeling, on the index form. */
  lemma DotStep(root: string)
    requires |PrefixBefore(root, '/')| < |root|
    ensures var p := PrefixBefore(root, '/');
      DotOpensComponent(root) <==> StartsWith(p, ".") || DotOpensComponent(root[|p| + 1..])
  {
    var p := PrefixBefore(root, '/');
    var rest := root[|p| + 1..];
    assert root[|p|] == '/';
    if DotOpensComponent(root) {
      var i :| 0 <= i < |root| && root[i] == '.' && (i == 0 || root[i - 1] == '/');
      if i <= |p| {
        assert i == 0 by {
          assert p == root[..|p|] && '/' !in p;
          assert forall j :: 0 <= j < |p| ==> root[j] != '/';
        }
        assert p[0] == '.';
      } else {
        var j := i - |p| - 1;
        assert rest[j] == '.' && (j == 0 || rest[j - 1] == '/');
      }
    }
    if DotOpensComponent(rest) {
      var j :| 0 <= j < |rest| && rest[j] == '.' && (j == 0 || rest[j - 1] == '/');
      var i := j + |p| + 1;
      assert root[i] == '.' && root[i - 1] == '/';
    }
    if StartsWith(p, ".") {
      assert root[0] == '.';
    }
  }

  /** Splitting on '/' and testing each part's first character is the same
      as looking for a '.' at the start of the text or right after a '/'. */
  lemma {:induction false} HiddenPartIff(root: string)
    ensures HasHiddenPart(root) <==> DotOpensComponent(root)
    decreases |root|
  {
    var p := PrefixBefore(root, '/');
    if |p| == |root| {
      assert p == root;
      assert Split(root, '/') == [root];
      if DotOpensComponent(root) {
        var i :| 0 <= i < |root| && root[i] == '.' && (i == 0 || root[i - 1] == '/');
        assert i == 0 by {
          assert forall j :: 0 <= j < |root| ==> root[j] != '/';
        }
        assert StartsWith(Split(root, '/')[0], ".");
      }
    } else {
      HiddenPartIff(root[|p| + 1..]);
      HiddenPartStep(root);
      DotStep(root);
    }
  }

  /** The filter of lines 66-69: skip a root with a component starting with
      '.' or containing "__pycache__" anywhere in its text. */
  function SkippedRoot(root: string): (skip: bool)
    ensures skip <==> DotOpensComponent(root) || Contains(root, "__pycache__")
  {
    HiddenPartIff(root);
    HasHiddenPart(root) || Contains(root, "__pycache__")
  }

  /** Running totals: reports, and files with at least one report. */
  datatype Tally = Tally(reports: nat, files: nat) {
    function Plus(other: Tally): Tally {
      Tally(reports + other.reports, files + other.files)
    }
  }

  /** What one file adds: only files ending in ".py" are analysed, and a
      file is counted as scanned when it has at least one report. */
  function FileTally(f: SourceFile, analyze: Source -> seq<Missing>): (t: Tally)
    ensures t.files <= 1 && t.files <= t.reports
  {
    if EndsWith(f.name, ".py") then
      var n := |analyze(f.source)|;
      Tally(n, if n > 0 then 1 else 0)
    else Tally(0, 0)
  }

  /** The reports of the Python files of one directory. */
  function FileTotals(files: seq<SourceFile>, analyze: Source -> seq<Missing>): (t: Tally)
    ensures t.files <= t.reports && t.files <= |files|
  {
    if |files| == 0 then Tally(0, 0)
    else FileTally(files[0], analyze).Plus(FileTotals(files[1..], analyze))
  }

  /** What one directory adds: nothing when its root is skipped. */
  function StepTally(step: WalkStep, skip: string -> bool, analyze: Source -> seq<Missing>): (t: Tally)
    ensures t.files <= t.reports
  {
    if skip(step.root) then Tally(0, 0) else FileTotals(step.files, analyze)
  }

  /** The reports of every directory the filter keeps. */
  function Totals(steps: seq<WalkStep>, skip: string -> bool, analyze: Source -> seq<Missing>): (t: Tally)
    ensures t.files <= t.reports
  {
    if |steps| == 0 then Tally(0, 0)
    else StepTally(steps[0], skip, analyze).Plus(Totals(steps[1..], skip, analyze))
  }

  /** The scan under a given root filter. */
  function Scan(steps: seq<WalkStep>, skip: string -> bool, analyze: Source -> seq<Missing>): (s: Summary)
    ensures s.exitStatus == 1 <==> s.totalMissing > 0
    ensures s.exitStatus == 0 <==> s.totalMissing == 0
    ensures s.filesScanned <= s.totalMissing
    ensures s.totalMissing == 0 <==> s.filesScanned == 0
  {
    var t := Totals(steps, skip, analyze);
    ScannedWhenMissing(steps, skip, analyze);
    Summary(t.reports, t.files, if t.reports > 0 then 1 else 0)
  }

  lemma {:induction false} ScannedWhenMissing(steps: seq<WalkStep>, skip: string -> bool, analyze: Source -> seq<Missing>)
    ensures Totals(steps, skip, analyze).reports > 0 ==> Totals(steps, skip, analyze).files > 0
    decreases |steps|
  {
    if |steps| > 0 {
      ScannedWhenMissing(steps[1..], skip, analyze);
      if !skip(steps[0].root) {
        FilesScannedWhenMissing(steps[0].files, analyze);
      }
    }
  }

  lemma {:induction false} FilesScannedWhenMissing(files: seq<SourceFile>, analyze: Source -> seq<Missing>)
    ensures FileTotals(files, analyze).reports > 0 ==> FileTotals(files, analyze).files > 0
    decreases |files|
  {
    if |files| > 0 {
      FilesScannedWhenMissing(files[1..], analyze);
    }
  }

  /** The totals of one directory add up over any split of its files. */
  lemma {:induction false} FileTotalsAppend(a: seq<SourceFile>, b: seq<SourceFile>, analyze: Source -> seq<Missing>)
    ensures FileTotals(a + b, analyze) == FileTotals(a, analyze).Plus(FileTotals(b, analyze))
    decreases |a|
  {
    if |a| == 0 {
      assert a + b == b;
    } else {
      assert (a + b)[0] == a[0];
      assert (a + b)[1..] == a[1..] + b;
      FileTotalsAppend(a[1..], b, analyze);
    }
  }

  /** One file: a file not ending in ".py" counts nothing; a Python file
      adds its reports, and counts as scanned exactly when it has one. */
  lemma FileTotalsSingle(f: SourceFile, analyze: Source -> seq<Missing>)
    ensures var n := |analyze(f.source)|;
      FileTotals([f], analyze) == if EndsWith(f.name, ".py") then Tally(n, if n > 0 then 1 else 0) else Tally(0, 0)
  {
    assert [f][0] == f && [f][1..] == [];
    assert FileTotals([f], analyze) == FileTally(f, analyze).Plus(FileTotals([], analyze));
    PlusZero(FileTally(f, analyze));
  }

  /** The totals of a walk add up over any split of its steps. */
  lemma {:induction false} TotalsAppend(a: seq<WalkStep>, b: seq<WalkStep>, skip: string -> bool, analyze: Source -> seq<Missing>)
    ensures Totals(a + b, skip, analyze) == Totals(a, skip, analyze).Plus(Totals(b, skip, analyze))
    decreases |a|
  {
    if |a| == 0 {
      assert a + b == b;
    } else {
      assert (a + b)[0] == a[0];
      assert (a + b)[1..] == a[1..] + b;
      TotalsAppend(a[1..], b, skip, analyze);
    }
  }

  /** One step: a skipped root counts nothing, a kept one counts its files. */
  lemma TotalsSingle(step: WalkStep, skip: string -> bool, analyze: Source -> seq<Missing>)
    ensures Totals([step], skip, analyze) == if skip(step.root) then Tally(0, 0) else FileTotals(step.files, analyze)
  {
    assert [step][0] == step && [step][1..] == [];
    assert Totals([step], skip, analyze) == StepTally(step, skip, analyze).Plus(Totals([], skip, analyze));
    PlusZero(StepTally(step, skip, analyze));
  }

  /** Inserting a directory anywhere in the walk leaves the totals alone
      when its root is skipped. */
  lemma SkippedStepInvariant(pre: seq<WalkStep>, extra: WalkStep, post: seq<WalkStep>, skip: string -> bool, analyze: Source -> seq<Missing>)
    requires skip(extra.root)
    ensures Totals(pre + [extra] + post, skip, analyze) == Totals(pre + post, skip, analyze)
  {
    StepInsertion(pre, extra, post, skip, analyze);
    TotalsSingle(extra, skip, analyze);
  }

  /** Inserting a directory whose root is kept adds its files' totals. */
  lemma KeptStepAdds(pre: seq<WalkStep>, extra: WalkStep, post: seq<WalkStep>, skip: string -> bool, analyze: Source -> seq<Missing>)
    requires !skip(extra.root)
    ensures Totals(pre + [extra] + post, skip, analyze) == Totals(pre + post, skip, analyze).Plus(FileTotals(extra.files, analyze))
  {
    StepInsertion(pre, extra, post, skip, analyze);
    TotalsSingle(extra, skip, analyze);
  }

  /** Both cases at once: the totals after the insertion are those before,
      plus the inserted step's own. */
  lemma StepInsertion(pre: seq<WalkStep>, extra: WalkStep, post: seq<WalkStep>, skip: string -> bool, analyze: Source -> seq<Missing>)
    ensures Totals(pre + [extra] + post, skip, analyze) == Totals(pre + post, skip, analyze).Plus(Totals([extra], skip, analyze))
  {
    var x := Totals(pre, skip, analyze);
    var y := Totals([extra], skip, analyze);
    var z := Totals(post, skip, analyze);
    TotalsAppend(pre, post, skip, analyze);
    TotalsAppend(pre, [extra], skip, analyze);
    TotalsAppend(pre + [extra], post, skip, analyze);
    PlusSwap(x, y, z);
  }

  lemma PlusZero(x: Tally)
    ensures x.Plus(Tally(0, 0)) == x
  {
  }

  /** Tallies may be added in any order. */
  lemma PlusSwap(x: Tally, y: Tally, z: Tally)
    ensures x.Plus(y).Plus(z) == x.Plus(z).Plus(y)
  {
  }

  /** Scanning two parts of a walk: the printed totals add up. */
  lemma ScanAppend(a: seq<WalkStep>, b: seq<WalkStep>, skip: string -> bool, analyze: Source -> seq<Missing>)
    ensures Scan(a + b, skip, analyze).totalMissing == Scan(a, skip, analyze).totalMissing + Scan(b, skip, analyze).totalMissing
    ensures Scan(a + b, skip, analyze).filesScanned == Scan(a, skip, analyze).filesScanned + Scan(b, skip, analyze).filesScanned
  {
    var t, ta, tb := Totals(a + b, skip, analyze), Totals(a, skip, analyze), Totals(b, skip, analyze);
    TotalsAppend(a, b, skip, analyze);
    assert Scan(a + b, skip, analyze).totalMissing == t.reports && Scan(a + b, skip, analyze).filesScanned == t.files;
    assert Scan(a, skip, analyze).totalMissing == ta.reports && Scan(a, skip, analyze).filesScanned == ta.files;
    assert Scan(b, skip, analyze).totalMissing == tb.reports && Scan(b, skip, analyze).filesScanned == tb.files;
  }

  /** The scan of two parts of a walk fails exactly when one part's does. */
  lemma ScanFailsAppend(a: seq<WalkStep>, b: seq<WalkStep>, skip: string -> bool, analyze: Source -> seq<Missing>)
    ensures Scan(a + b, skip, analyze).exitStatus == 1 <==> Scan(a, skip, analyze).exitStatus == 1 || Scan(b, skip, analyze).exitStatus == 1
  {
    TotalsAppend(a, b, skip, analyze);
  }

  /** Scanning one directory: a skipped root prints nothing; a kept one
      prints its files' totals, and fails exactly when they are positive. */
  lemma ScanSingle(step: WalkStep, skip: string -> bool, analyze: Source -> seq<Missing>)
    ensures var t := if skip(step.root) then Tally(0, 0) else FileTotals(step.files, analyze);
      Scan([step], skip, analyze) == Summary(t.reports, t.files, if t.reports > 0 then 1 else 0)
  {
    TotalsSingle(step, skip, analyze);
  }

  /** `scan_directory` over the triples `os.walk` yields. A root whose
      first character is '.' opens with a hidden component, so when every
      root does, nothing is reported. */
  function ScanDirectory(steps: seq<WalkStep>): (s: Summary)
    ensures s.exitStatus == 1 <==> s.totalMissing > 0
    ensures s.exitStatus == 0 <==> s.totalMissing == 0
    ensures (forall i :: 0 <= i < |steps| ==> StartsWith(steps[i].root, ".")) ==> s == Summary(0, 0, 0)
    ensures s.totalMissing == Totals(steps, SkippedRoot, AnalyzeFile).reports
    ensures s.filesScanned == Totals(steps, SkippedRoot, AnalyzeFile).files
  {
    DotRootsScanNothing(steps);
    Scan(steps, SkippedRoot, AnalyzeFile)
  }

  /** Roots that start with '.' are all skipped, so a walk made only of
      them scans nothing. */
  lemma DotRootsScanNothing(steps: seq<WalkStep>)
    ensures (forall i :: 0 <= i < |steps| ==> StartsWith(steps[i].root, "."))
        ==> Scan(steps, SkippedRoot, AnalyzeFile) == Summary(0, 0, 0)
  {
    if forall i :: 0 <= i < |steps| ==> StartsWith(steps[i].root, ".") {
      forall i | 0 <= i < |steps|
        ensures SkippedRoot(steps[i].root)
      {
        assert steps[i].root[0] == '.';
      }
      AllSkippedScansNothing(steps, SkippedRoot, AnalyzeFile);
    }
  }

  /** Skipped directories contribute nothing. */
  lemma {:induction false} AllSkippedScansNothing(steps: seq<WalkStep>, skip: string -> bool, analyze: Source -> seq<Missing>)
    requires forall i :: 0 <= i < |steps| ==> skip(steps[i].root)
    ensures Scan(steps, skip, analyze) == Summary(0, 0, 0)
    decreases |steps|
  {
    if |steps| > 0 {
      AllSkippedScansNothing(steps[1..], skip, analyze);
    }
  }

  /** `os.walk(".")` yields the root "." and then roots "./<path>": every
      one opens with a '.' component, so the default target reports
      nothing and always exits 0. */
  lemma DefaultTargetScansNothing(steps: seq<WalkStep>)
    requires forall i :: 0 <= i < |steps| ==> steps[i].root == "." || StartsWith(steps[i].root, "./")
    ensures ScanDirectory(steps) == Summary(0, 0, 0)
  {
    forall i | 0 <= i < |steps| ensures StartsWith(steps[i].root, ".") {
      assert steps[i].root[0] == '.';
    }
  }

  /** The filter the comment on line 65 describes: a hidden directory is a
      component that starts with '.' and is not "." or ".." itself. */
  predicate HasHiddenDirectory(root: string) {
    var parts := Split(root, '/');
    exists i :: 0 <= i < |parts| && StartsWith(parts[i], ".") && parts[i] != "." && parts[i] != ".."
  }

  predicate SkippedRootIntended(root: string) {
    HasHiddenDirectory(root) || Contains(root, "__pycache__")
  }

  /** `scan_directory` with the corrected root filter. */
  function ScanDirectoryIntended(steps: seq<WalkStep>): Summary {
    Scan(steps, SkippedRootIntended, AnalyzeFile)
  }

  /** The corrected filter only ever skips less. */
  lemma IntendedSkipsLess(root: string)
    ensures SkippedRootIntended(root) ==> SkippedRoot(root)
  {
  }

  /** The "./" that `os.walk(".")` puts in front of every root makes no
      difference to the corrected filter. */
  lemma IntendedIgnoresCurrentDirectory(rel: string)
    ensures SkippedRootIntended("./" + rel) <==> SkippedRootIntended(rel)
  {
    var root := "./" + rel;
    assert root == "." + ['/'] + rel;
    PrefixBeforeJoined(".", '/', rel);
    assert root[2..] == rel;
    assert Split(root, '/') == ["."] + Split(rel, '/');
    var parts := Split(root, '/');
    var relParts := Split(rel, '/');
    if HasHiddenDirectory(root) {
      var i :| 0 <= i < |parts| && StartsWith(parts[i], ".") && parts[i] != "." && parts[i] != "..";
      assert parts[i] == relParts[i - 1];
    }
    if HasHiddenDirectory(rel) {
      var j :| 0 <= j < |relParts| && StartsWith(relParts[j], ".") && relParts[j] != "." && relParts[j] != "..";
      assert parts[j + 1] == relParts[j];
    }
    ContainsAfterPrefix("./", rel, "__pycache__");
  }

  /** A pattern that cannot start inside a short prefix is found in the
      joined text exactly when it is found in the rest. */
  lemma ContainsAfterPrefix(pre: string, rest: string, t: string)
    requires |t| > 0
    requires forall i :: 0 <= i < |pre| ==> pre[i] != t[0]
    ensures Contains(pre + rest, t) <==> Contains(rest, t)
  {
    var s := pre + rest;
    if Contains(s, t) {
      var i :| 0 <= i <= |s| - |t| && OccursAt(s, t, i);
      assert s[i] == t[0];
      assert i >= |pre|;
      assert OccursAt(rest, t, i - |pre|) by {
        forall k | 0 <= k < |t| ensures rest[i - |pre| + k] == t[k] {
          assert s[i + k] == t[k];
        }
      }
    }
    if Contains(rest, t) {
      var j :| 0 <= j <= |rest| - |t| && OccursAt(rest, t, j);
      assert OccursAt(s, t, j + |pre|) by {
        forall k | 0 <= k < |t| ensures s[j + |pre| + k] == t[k] {
          assert rest[j + k] == t[k];
        }
      }
    }
  }

  /** The root "." itself is scanned under the corrected filter. */
  lemma IntendedKeepsCurrentDirectory()
    ensures !SkippedRootIntended(".")
  {
    assert PrefixBefore(".", '/') == ".";
    assert Split(".", '/') == ["."];
  }

  /** Any Python file with a report, directly in the default target "."
      (say m.py holding one undocumented function, see
      `OneUndocumentedFunction`): the scan as written reports nothing and
      exits 0, the corrected scan reports it and exits 1. */
  lemma DotRootCounterexample(f: SourceFile)
    requires EndsWith(f.name, ".py") && |AnalyzeFile(f.source)| > 0
    ensures var steps := [WalkStep(".", [f])];
      ScanDirectory(steps) == Summary(0, 0, 0)
      && ScanDirectoryIntended(steps) == Summary(|AnalyzeFile(f.source)|, 1, 1)
  {
    var step := WalkStep(".", [f]);
    DefaultTargetScansNothing([step]);
    IntendedKeepsCurrentDirectory();
    FileTotalsSingle(f, AnalyzeFile);
    TotalsSingle(step, SkippedRootIntended, AnalyzeFile);
  }

  /** A module holding one function without a docstring has one report. */
  lemma OneUndocumentedFunction(name: string, line: nat)
    ensures |AnalyzeFile(Parsed(Other([Function(name, line, None, [])])))| == 1
  {
    var def := Function(name, line, None, []);
    var tree := Other([def]);
    assert Nodes(def) == [def];
    assert Nodes(tree) == [tree, def];
    ReportWeight(tree);
    ReportWeight(def);
  }
}

=== FILE: design.dfy ===
/** The deterministic generators of the minimal-clean design skill
    (minimal_clean/minimal_clean.py): colour palettes, the spacing scale,
    rule-based recommendations and the `:root` block of the generated CSS.

    Python dictionaries become maps, because the key set of a palette
    depends on its style and a caller may pass any dictionary to the CSS
    generator. */
module Design {
  import opened Wrappers
  import opened Strings
  import opened Numerals

  // ---------------------------------------------------------------------
  // Colour palettes

  /** `f"hsl({hue}, {saturation}, {lightness})"` */
  function Hsl(hue: int, saturation: string, lightness: string): string {
    "hsl(" + IntToString(hue) + ", " + saturation + ", " + lightness + ")"
  }

  /** Reads the hue back out of an `hsl(...)` colour. */
  function HslHue(colour: string): Option<int> {
    if StartsWith(colour, "hsl(") then ParseInt(PrefixBefore(colour[4..], ',')) else None
  }

  /** An `hsl(...)` colour written by `Hsl` gives back its hue. */
  lemma HslHueRoundTrip(hue: int, saturation: string, lightness: string)
    ensures HslHue(Hsl(hue, saturation, lightness)) == Some(hue)
  {
    var c := Hsl(hue, saturation, lightness);
    var digits := IntToString(hue);
    IntToStringRoundTrip(hue);
    assert c[..4] == "hsl(";
    assert c[4..] == digits + [','] + (" " + saturation + ", " + lightness + ")");
    assert ',' !in digits by {
      forall k | 0 <= k < |digits| ensures digits[k] != ',' {
        assert digits[k] == '-' || IsDigit(digits[k]);
      }
    }
    PrefixBeforeJoined(digits, ',', " " + saturation + ", " + lightness + ")");
  }

  const MonochromeKeys: set<string> :=
    {"background", "surface", "text_primary", "text_secondary", "accent", "accent_hover"}
  const DuotoneKeys: set<string> :=
    {"background", "surface", "text_primary", "text_secondary", "primary", "secondary"}
  const AccentKeys: set<string> := {"background", "surface", "text", "accent"}

  /** `(base_hue + 120) % 360` with Python's `%`, which for a positive
      divisor rounds toward minus infinity exactly as Dafny's Euclidean `%`
      does: the result is never negative. */
  function ComplementHue(baseHue: int): (h: int)
    ensures 0 <= h < 360
    ensures (h - baseHue - 120) % 360 == 0
  {
    (baseHue + 120) % 360
  }

  /** `generate_minimal_color_palette(base_hue, style)`. Any style other
      than "monochrome" or "duotone" falls through to the accent palette.
      Only the duotone secondary hue is reduced modulo 360; the other hues
      embed `base_hue` as given. */
  function ColorPalette(baseHue: int, style: string): (p: map<string, string>)
    ensures style == "monochrome" ==> p.Keys == MonochromeKeys
    ensures style == "duotone" ==> p.Keys == DuotoneKeys
    ensures style != "monochrome" && style != "duotone" ==> p.Keys == AccentKeys
  {
    if style == "monochrome" then
      map[
        "background" := "#fdfdfd",
        "surface" := "#f5f5f5",
        "text_primary" := "#212121",
        "text_secondary" := "#757575",
        "accent" := Hsl(baseHue, "60%", "50%"),
        "accent_hover" := Hsl(baseHue, "60%", "40%")]
    else if style == "duotone" then
      map[
        "background" := "#fdfdfd",
        "surface" := "#f5f5f5",
        "text_primary" := "#212121",
        "text_secondary" := "#757575",
        "primary" := Hsl(baseHue, "60%", "50%"),
        "secondary" := Hsl(ComplementHue(baseHue), "60%", "50%")]
    else
      map[
        "background" := "#ffffff",
        "surface" := "#f8f9fa",
        "text" := "#333333",
        "accent" := Hsl(baseHue, "70%", "45%")]
  }

  /** The monochrome palette carries the base hue, unreduced, in both
      accent colours. */
  lemma MonochromeHues(baseHue: int)
    ensures HslHue(ColorPalette(baseHue, "monochrome")["accent"]) == Some(baseHue)
    ensures HslHue(ColorPalette(baseHue, "monochrome")["accent_hover"]) == Some(baseHue)
  {
    HslHueRoundTrip(baseHue, "60%", "50%");
    HslHueRoundTrip(baseHue, "60%", "40%");
  }

  /** The duotone palette pairs the base hue with the hue 120 degrees
      round the colour wheel, reduced into [0, 360). */
  lemma DuotoneHues(baseHue: int)
    ensures HslHue(ColorPalette(baseHue, "duotone")["primary"]) == Some(baseHue)
    ensures HslHue(ColorPalette(baseHue, "duotone")["secondary"]) == Some(ComplementHue(baseHue))
  {
    HslHueRoundTrip(baseHue, "60%", "50%");
    HslHueRoundTrip(ComplementHue(baseHue), "60%", "50%");
  }

  /** Every other style gets the accent palette, carrying the base hue
      unreduced. */
  lemma AccentHue(baseHue: int, style: string)
    requires style != "monochrome" && style != "duotone"
    ensures HslHue(ColorPalette(baseHue, style)["accent"]) == Some(baseHue)
  {
    HslHueRoundTrip(baseHue, "70%", "45%");
  }

  /** The key sets name six, six and four distinct keys. */
  lemma KeySetSizes()
    ensures |MonochromeKeys| == 6 && |DuotoneKeys| == 6 && |AccentKeys| == 4
  {
    var shared := {"background", "surface", "text_primary", "text_secondary"};
    assert |shared| == 4;
    assert MonochromeKeys == shared + {"accent", "accent_hover"};
    assert DuotoneKeys == shared + {"primary", "secondary"};
  }

  /** Monochrome and duotone palettes have six colours, the accent palette four. */
  lemma PaletteSizes(baseHue: int, style: string)
    ensures |ColorPalette(baseHue, style)| == if style == "monochrome" || style == "duotone" then 6 else 4
  {
    var p := ColorPalette(baseHue, style);
    assert |p| == |p.Keys|;
    KeySetSizes();
  }

  // ---------------------------------------------------------------------
  // Spacing scale

  /** The spacing keys, smallest first. */
  const SpacingKeys: seq<string> := ["xxs", "xs", "sm", "md", "lg", "xl", "xxl", "xxxl"]

  /** `optimize_layout_spacing(base_unit)`. `xxs` is `base_unit // 2`,
      Python's floor division, which Dafny's `/` matches for the divisor 2. */
  function LayoutSpacing(baseUnit: int): (s: map<string, int>)
    ensures s.Keys == {"xxs", "xs", "sm", "md", "lg", "xl", "xxl", "xxxl"}
  {
    map[
      "xxs" := baseUnit / 2,
      "xs" := baseUnit,
      "sm" := baseUnit * 2,
      "md" := baseUnit * 3,
      "lg" := baseUnit * 4,
      "xl" := baseUnit * 6,
      "xxl" := baseUnit * 8,
      "xxxl" := baseUnit * 12]
  }

  /** For a positive unit the scale strictly increases from xxs to xxxl. */
  lemma SpacingIncreasing(baseUnit: int)
    requires baseUnit >= 1
    ensures forall i, j :: 0 <= i < j < |SpacingKeys| ==>
      LayoutSpacing(baseUnit)[SpacingKeys[i]] < LayoutSpacing(baseUnit)[SpacingKeys[j]]
  {
    var s := LayoutSpacing(baseUnit);
    forall i, j | 0 <= i < j < |SpacingKeys|
      ensures s[SpacingKeys[i]] < s[SpacingKeys[j]]
    {
      SpacingStepIncreasing(baseUnit, i);
      if i + 1 < j {
        SpacingIncreasingFrom(baseUnit, i + 1, j);
      }
    }
  }

  lemma SpacingStepIncreasing(baseUnit: int, i: nat)
    requires baseUnit >= 1 && i + 1 < |SpacingKeys|
    ensures LayoutSpacing(baseUnit)[SpacingKeys[i]] < LayoutSpacing(baseUnit)[SpacingKeys[i + 1]]
  {
  }

  lemma {:induction false} SpacingIncreasingFrom(baseUnit: int, i: nat, j: nat)
    requires baseUnit >= 1 && i < j < |SpacingKeys|
    ensures LayoutSpacing(baseUnit)[SpacingKeys[i]] < LayoutSpacing(baseUnit)[SpacingKeys[j]]
    decreases j - i
  {
    SpacingStepIncreasing(baseUnit, i);
    if i + 1 < j {
      SpacingIncreasingFrom(baseUnit, i + 1, j);
    }
  }

  /** Every step from xs upward is a whole multiple of the unit, and xxs is
      its floor half. */
  lemma SpacingMultiples(baseUnit: int)
    ensures forall i :: 1 <= i < |SpacingKeys| ==> baseUnit != 0 ==> LayoutSpacing(baseUnit)[SpacingKeys[i]] % baseUnit == 0
    ensures LayoutSpacing(baseUnit)["xs"] == baseUnit
    ensures 2 * LayoutSpacing(baseUnit)["xxs"] == baseUnit || 2 * LayoutSpacing(baseUnit)["xxs"] == baseUnit - 1
  {
    if baseUnit != 0 {
      var s := LayoutSpacing(baseUnit);
      MultipleMod(baseUnit, 1);
      MultipleMod(baseUnit, 2);
      MultipleMod(baseUnit, 3);
      MultipleMod(baseUnit, 4);
      MultipleMod(baseUnit, 6);
      MultipleMod(baseUnit, 8);
      MultipleMod(baseUnit, 12);
      forall i | 1 <= i < |SpacingKeys| ensures s[SpacingKeys[i]] % baseUnit == 0 {
      }
    }
  }

  /** Euclidean remainder of a multiple is zero. */
  lemma MultipleMod(b: int, c: int)
    requires b != 0
    ensures (b * c) % b == 0
  {
    var d := c - (b * c) / b;
    assert (b * c) % b == d * b;
  }

  // ---------------------------------------------------------------------
  // Recommendations

  /** The design properties the recommender reads; `None` is a key the
      dictionary does not have. */
  datatype DesignFacts = DesignFacts(
    fontCount: Option<int>,
    colorCount: Option<int>,
    whitespaceRatio: Option<real>,
    consistentSpacing: Option<bool>,
    typographyHierarchy: Option<bool>)

  /** The five rules, in the order they are checked. */
  datatype Rule = FewerFonts | FewerColors | MoreWhitespace | SpacingSystem | TypeHierarchy

  function Message(rule: Rule): string {
    match rule
    case FewerFonts => "Reduce number of font families to 2 or fewer"
    case FewerColors => "Limit color palette to 5 or fewer colors"
    case MoreWhitespace => "Increase whitespace to at least 30% of the layout"
    case SpacingSystem => "Implement a consistent spacing system using a base unit"
    case TypeHierarchy => "Establish clear typography hierarchy with distinct sizes"
  }

  /** The fact `rule` looks at is missing from the analysis. */
  predicate Absent(d: DesignFacts, rule: Rule) {
    match rule
    case FewerFonts => d.fontCount.None?
    case FewerColors => d.colorCount.None?
    case MoreWhitespace => d.whitespaceRatio.None?
    case SpacingSystem => d.consistentSpacing.None?
    case TypeHierarchy => d.typographyHierarchy.None?
  }

  /** Whether `rule`'s recommendation is made. A missing fact takes the
      default of the lookup: zero fonts or colours, a whitespace ratio of
      zero, consistent spacing and a clear hierarchy; so a missing fact
      never fires its rule, except the whitespace ratio, which does. */
  function Triggered(d: DesignFacts, rule: Rule): (fires: bool)
    ensures Absent(d, rule) ==> (fires <==> rule == MoreWhitespace)
  {
    match rule
    case FewerFonts => d.fontCount.GetOr(0) > 2
    case FewerColors => d.colorCount.GetOr(0) > 5
    case MoreWhitespace => d.whitespaceRatio.GetOr(0.0) < 0.3
    case SpacingSystem => !d.consistentSpacing.GetOr(true)
    case TypeHierarchy => !d.typographyHierarchy.GetOr(true)
  }

  /** Position of a rule in the order the source checks them. */
  function Rank(rule: Rule): nat {
    match rule
    case FewerFonts => 0
    case FewerColors => 1
    case MoreWhitespace => 2
    case SpacingSystem => 3
    case TypeHierarchy => 4
  }

  /** The rule checked in position `k`. */
  function RuleAt(k: nat): (rule: Rule)
    requires k < 5
    ensures Rank(rule) == k
  {
    if k == 0 then FewerFonts
    else if k == 1 then FewerColors
    else if k == 2 then MoreWhitespace
    else if k == 3 then SpacingSystem
    else TypeHierarchy
  }

  /** Distinct rules give distinct advice. */
  lemma MessageInjective(a: Rule, b: Rule)
    ensures Message(a) == Message(b) ==> a == b
  {
    MessageLength(a);
    MessageLength(b);
  }

  /** The length of each message; no two are alike. */
  function Length(rule: Rule): nat {
    match rule
    case FewerFonts => 44
    case FewerColors => 40
    case MoreWhitespace => 49
    case SpacingSystem => 55
    case TypeHierarchy => 56
  }

  lemma MessageLength(rule: Rule)
    ensures |Message(rule)| == Length(rule)
  {
    match rule
    case FewerFonts => assert |Message(FewerFonts)| == 44;
    case FewerColors => assert |Message(FewerColors)| == 40;
    case MoreWhitespace => assert |Message(MoreWhitespace)| == 49;
    case SpacingSystem => assert |Message(SpacingSystem)| == 55;
    case TypeHierarchy => assert |Message(TypeHierarchy)| == 56;
  }

  /** The rules from position `k` on that fire on `d`, in checking order. */
  function Fired(d: DesignFacts, k: nat): (fired: seq<Rule>)
    requires k <= 5
    ensures |fired| <= 5 - k
    decreases 5 - k
  {
    if k == 5 then []
    else
      var rest := Fired(d, k + 1);
      if Triggered(d, RuleAt(k)) then [RuleAt(k)] + rest else rest
  }

  /** The rules listed from position `k` on are exactly those that fire
      there. */
  lemma {:induction false} FiredMembership(d: DesignFacts, k: nat)
    requires k <= 5
    ensures forall rule :: rule in Fired(d, k) <==> k <= Rank(rule) && Triggered(d, rule)
    decreases 5 - k
  {
    if k < 5 {
      FiredMembership(d, k + 1);
      FiredStep(d, k);
      forall rule ensures rule in Fired(d, k) <==> k <= Rank(rule) && Triggered(d, rule) {
        if Rank(rule) == k {
          assert rule == RuleAt(k);
        }
      }
    }
  }

  /** The rules listed from position `k` on come in strictly increasing
      checking order, so none is listed twice. */
  lemma {:induction false} FiredOrdered(d: DesignFacts, k: nat)
    requires k <= 5
    ensures forall i :: 0 <= i < |Fired(d, k)| ==> k <= Rank(Fired(d, k)[i])
    ensures forall i, j :: 0 <= i < j < |Fired(d, k)| ==> Rank(Fired(d, k)[i]) < Rank(Fired(d, k)[j])
    decreases 5 - k
  {
    if k < 5 {
      FiredOrdered(d, k + 1);
      var rest := Fired(d, k + 1);
      var fired := Fired(d, k);
      if Triggered(d, RuleAt(k)) {
        assert fired == [RuleAt(k)] + rest;
        assert forall i :: 0 < i < |fired| ==> fired[i] == rest[i - 1];
      }
    }
  }

  /** The advice for each rule, in the same order. */
  function Messages(rules: seq<Rule>): (ms: seq<string>)
    ensures |ms| == |rules|
    ensures forall i :: 0 <= i < |rules| ==> ms[i] == Message(rules[i])
  {
    if |rules| == 0 then [] else [Message(rules[0])] + Messages(rules[1..])
  }

  /** A rule's advice is listed exactly when the rule is. */
  lemma MessagesMembership(rules: seq<Rule>, rule: Rule)
    ensures Message(rule) in Messages(rules) <==> rule in rules
  {
    var ms := Messages(rules);
    if Message(rule) in ms {
      var i :| 0 <= i < |ms| && ms[i] == Message(rule);
      MessageInjective(rule, rules[i]);
    }
    if rule in rules {
      var i :| 0 <= i < |rules| && rules[i] == rule;
      assert ms[i] == Message(rule);
    }
  }

  /** `provide_minimal_design_recommendations`: the advice of every rule
      that fires and of no other, in checking order, none repeated. */
  function Recommendations(d: DesignFacts): (r: seq<string>)
    ensures |r| <= 5
    ensures forall rule :: Message(rule) in r <==> Triggered(d, rule)
    ensures forall i, j :: 0 <= i < j < |r| ==> r[i] != r[j]
    ensures |r| == |Fired(d, 0)|
    ensures forall i :: 0 <= i < |r| ==> r[i] == Message(Fired(d, 0)[i])
  {
    var fired := Fired(d, 0);
    FiredMembership(d, 0);
    FiredOrdered(d, 0);
    var r := Messages(fired);
    forall rule ensures Message(rule) in r <==> Triggered(d, rule) {
      MessagesMembership(fired, rule);
    }
    forall i, j | 0 <= i < j < |r| ensures r[i] != r[j] {
      MessageInjective(fired[i], fired[j]);
    }
    r
  }

  /** An empty design only lacks whitespace: the ratio defaults to 0 and
      both flags default to True. */
  lemma EmptyDesignRecommendation()
    ensures Recommendations(DesignFacts(None, None, None, None, None)) == [Message(MoreWhitespace)]
  {
    var d := DesignFacts(None, None, None, None, None);
    assert Fired(d, 3) == [];
    assert Fired(d, 2) == [MoreWhitespace];
  }

  /** A design within every threshold gets no recommendation. */
  lemma CleanDesignNoRecommendations(d: DesignFacts)
    requires d.fontCount.GetOr(0) <= 2 && d.colorCount.GetOr(0) <= 5
    requires d.whitespaceRatio.GetOr(0.0) >= 0.3
    requires d.consistentSpacing.GetOr(true) && d.typographyHierarchy.GetOr(true)
    ensures Recommendations(d) == []
  {
    assert Fired(d, 4) == [];
    assert Fired(d, 3) == [];
    assert Fired(d, 2) == [];
    assert Fired(d, 1) == [];
    assert Fired(d, 0) == [];
  }

  /** One unfolding of `Fired`: position `k` is decided, then the rest. */
  lemma FiredStep(d: DesignFacts, k: nat)
    requires k < 5
    ensures Fired(d, k) == (if Triggered(d, RuleAt(k)) then [RuleAt(k)] else []) + Fired(d, k + 1)
  {
    if !Triggered(d, RuleAt(k)) {
      assert [] + Fired(d, k + 1) == Fired(d, k + 1);
    }
  }

  /** When every rule fires, all five are listed, in checking order. */
  lemma {:induction false} AllRulesFire(d: DesignFacts)
    requires forall rule :: Triggered(d, rule)
    ensures Fired(d, 0) == [FewerFonts, FewerColors, MoreWhitespace, SpacingSystem, TypeHierarchy]
  {
    FiredStep(d, 4);
    assert Fired(d, 4) == [TypeHierarchy];
    FiredStep(d, 3);
    FiredStep(d, 2);
    FiredStep(d, 1);
    FiredStep(d, 0);
  }

  /** The sample design of the skill's test script fires all five rules. */
  lemma SampleDesignAllRules()
    ensures Fired(DesignFacts(Some(3), Some(8), Some(0.25), Some(false), Some(false)), 0)
         == [FewerFonts, FewerColors, MoreWhitespace, SpacingSystem, TypeHierarchy]
    ensures |Recommendations(DesignFacts(Some(3), Some(8), Some(0.25), Some(false), Some(false)))| == 5
  {
    var d := DesignFacts(Some(3), Some(8), Some(0.25), Some(false), Some(false));
    assert forall rule :: Triggered(d, rule) by {
      assert 0.25 < 0.3;
    }
    AllRulesFire(d);
  }

  // ---------------------------------------------------------------------
  // CSS `:root` block

  /** One custom-property declaration `name: value;` of the `:root` block. */
  datatype Decl = Decl(name: string, value: string)

  /** Palette keys the CSS reads, and the properties they become. */
  const ColorKeys: seq<string> :=
    ["background", "surface", "text_primary", "text_secondary", "accent", "accent_hover"]
  const ColorVars: seq<string> :=
    ["--color-background", "--color-surface", "--color-text-primary",
     "--color-text-secondary", "--color-accent", "--color-accent-hover"]

  /** Typography levels and fields the CSS reads, in the order it reads them. */
  const TypeLevels: seq<string> := ["display", "h1", "h2", "body"]
  const TypeFields: seq<string> := ["size", "weight", "line_height"]
  const TypeVarStems: seq<string> := ["--font-size-", "--font-weight-", "--line-height-"]

  /** The typography table `create_typography_system(18)` returns, each value
      as Python renders it into the CSS. */
  const DefaultTypography: map<string, map<string, string>> := map[
    "display" := map["size" := "43px", "weight" := "700", "line_height" := "1.2"],
    "h1" := map["size" := "35px", "weight" := "600", "line_height" := "1.25"],
    "h2" := map["size" := "28px", "weight" := "500", "line_height" := "1.3"],
    "h3" := map["size" := "22px", "weight" := "500", "line_height" := "1.4"],
    "body" := map["size" := "18px", "weight" := "400", "line_height" := "1.6"],
    "small" := map["size" := "14px", "weight" := "400", "line_height" := "1.5"]]

  predicate HasKeys<V>(m: map<string, V>, keys: seq<string>) {
    forall i :: 0 <= i < |keys| ==> keys[i] in m
  }

  predicate HasTypography(t: map<string, map<string, string>>) {
    forall l :: 0 <= l < |TypeLevels| ==> TypeLevels[l] in t && HasKeys(t[TypeLevels[l]], TypeFields)
  }

  /** `keys[i]` is the first of `keys` that `m` lacks. */
  predicate FirstMissing<V>(m: map<string, V>, keys: seq<string>, i: int) {
    0 <= i < |keys| && keys[i] !in m && forall j :: 0 <= j < i ==> keys[j] in m
  }

  /** Looks `keys` up in order, failing with the first missing key as a
      Python subscript raises `KeyError` on it. */
  function LookupAll<V>(m: map<string, V>, keys: seq<string>): (r: Result<seq<V>, string>)
    ensures r.Success? <==> HasKeys(m, keys)
    ensures r.Success? ==> |r.value| == |keys| && forall i :: 0 <= i < |keys| ==> r.value[i] == m[keys[i]]
    ensures r.Failure? ==> exists i :: FirstMissing(m, keys, i) && keys[i] == r.error
  {
    if |keys| == 0 then Success([])
    else if keys[0] !in m then
      assert FirstMissing(m, keys, 0);
      Failure(keys[0])
    else
      match LookupAll(m, keys[1..])
      case Success(vs) => Success([m[keys[0]]] + vs)
      case Failure(k) =>
        var i :| FirstMissing(m, keys[1..], i) && keys[1..][i] == k;
        assert FirstMissing(m, keys, i + 1);
        Failure(k)
  }

  function ColorDecls(colours: seq<string>): (ds: seq<Decl>)
    requires |colours| == |ColorVars|
    ensures |ds| == |ColorVars|
    ensures forall i :: 0 <= i < |ds| ==> ds[i] == Decl(ColorVars[i], colours[i])
  {
    seq(|ColorVars|, i requires 0 <= i < |ColorVars| => Decl(ColorVars[i], colours[i]))
  }

  function SpacingDecls(values: seq<int>): (ds: seq<Decl>)
    requires |values| == |SpacingKeys|
    ensures |ds| == |SpacingKeys|
    ensures forall i :: 0 <= i < |ds| ==> ds[i] == Decl("--spacing-" + SpacingKeys[i], IntToString(values[i]) + "px")
  {
    seq(|SpacingKeys|, i requires 0 <= i < |SpacingKeys| =>
      Decl("--spacing-" + SpacingKeys[i], IntToString(values[i]) + "px"))
  }

  /** The typography declarations for `levels`, three per level, failing on
      the first missing level or field. */
  function TypographyDecls(t: map<string, map<string, string>>, levels: seq<string>): (r: Result<seq<Decl>, string>)
    ensures r.Success? <==> forall l :: 0 <= l < |levels| ==> levels[l] in t && HasKeys(t[levels[l]], TypeFields)
    ensures r.Success? ==> |r.value| == 3 * |levels|
    ensures r.Success? ==> forall l, f :: 0 <= l < |levels| && 0 <= f < 3 ==>
      r.value[3 * l + f] == Decl(TypeVarStems[f] + levels[l], t[levels[l]][TypeFields[f]])
  {
    if |levels| == 0 then Success([])
    else if levels[0] !in t then Failure(levels[0])
    else
      match LookupAll(t[levels[0]], TypeFields)
      case Failure(k) => Failure(k)
      case Success(vs) =>
        var here := seq(3, f requires 0 <= f < 3 => Decl(TypeVarStems[f] + levels[0], vs[f]));
        match TypographyDecls(t, levels[1..])
        case Failure(k) => Failure(k)
        case Success(rest) =>
          var all := here + rest;
          assert forall l, f :: 0 <= l < |levels| && 0 <= f < 3 ==>
            all[3 * l + f] == Decl(TypeVarStems[f] + levels[l], t[levels[l]][TypeFields[f]]) by {
            forall l, f | 0 <= l < |levels| && 0 <= f < 3
              ensures all[3 * l + f] == Decl(TypeVarStems[f] + levels[l], t[levels[l]][TypeFields[f]])
            {
              if l > 0 {
                assert levels[l] == levels[1..][l - 1];
                assert 3 * l + f == 3 + (3 * (l - 1) + f);
                assert all[3 * l + f] == rest[3 * (l - 1) + f];
              }
            }
          }
          Success(all)
  }

  /** The `:root` block of `generate_css_from_principles`: six colours,
      eight spacings and twelve typography declarations, in that order. It
      fails exactly when a key the template reads is missing. */
  function RootBlock(palette: map<string, string>, spacing: map<string, int>,
                     typography: map<string, map<string, string>>): (r: Result<seq<Decl>, string>)
    ensures r.Success? <==> HasKeys(palette, ColorKeys) && HasKeys(spacing, SpacingKeys) && HasTypography(typography)
    ensures r.Success? ==> |r.value| == 26
    ensures r.Success? ==> forall i :: 0 <= i < 6 ==> r.value[i] == Decl(ColorVars[i], palette[ColorKeys[i]])
    ensures r.Success? ==> forall i :: 0 <= i < 8 ==>
      r.value[6 + i] == Decl("--spacing-" + SpacingKeys[i], IntToString(spacing[SpacingKeys[i]]) + "px")
    ensures r.Success? ==> forall l, f :: 0 <= l < 4 && 0 <= f < 3 ==>
      r.value[14 + 3 * l + f] == Decl(TypeVarStems[f] + TypeLevels[l], typography[TypeLevels[l]][TypeFields[f]])
    ensures !HasKeys(palette, ColorKeys) ==> r.Failure? && exists i :: FirstMissing(palette, ColorKeys, i) && ColorKeys[i] == r.error
  {
    match LookupAll(palette, ColorKeys)
    case Failure(k) => Failure(k)
    case Success(colours) =>
      match LookupAll(spacing, SpacingKeys)
      case Failure(k) => Failure(k)
      case Success(values) =>
        match TypographyDecls(typography, TypeLevels)
        case Failure(k) => Failure(k)
        case Success(typeDecls) =>
          var all := ColorDecls(colours) + SpacingDecls(values) + typeDecls;
          assert forall k :: 14 <= k < |all| ==> all[k] == typeDecls[k - 14];
          Success(all)
  }

  /** `generate_css_from_principles` up to the end of `:root`: an argument
      left at `None` is replaced by its default generator's output. */
  function GenerateCss(palette: Option<map<string, string>>,
                       typography: Option<map<string, map<string, string>>>,
                       spacing: Option<map<string, int>>): (r: Result<seq<Decl>, string>)
    ensures r.Success? <==> ((palette.None? || HasKeys(palette.value, ColorKeys))
                          && (spacing.None? || HasKeys(spacing.value, SpacingKeys))
                          && (typography.None? || HasTypography(typography.value)))
    ensures r.Success? ==> |r.value| == 26
    ensures r.Success? && palette.Some? ==> forall i :: 0 <= i < 6 ==> r.value[i] == Decl(ColorVars[i], palette.value[ColorKeys[i]])
  {
    DefaultsComplete();
    RootBlock(palette.GetOr(ColorPalette(220, "monochrome")),
              spacing.GetOr(LayoutSpacing(8)),
              typography.GetOr(DefaultTypography))
  }

  /** Only the monochrome palette carries the six colour keys the CSS reads:
      the duotone palette lacks `accent` and the accent palette lacks
      `text_primary`. */
  lemma CssNeedsMonochrome(baseHue: int, style: string, spacing: map<string, int>,
                           typography: map<string, map<string, string>>)
    requires HasKeys(spacing, SpacingKeys) && HasTypography(typography)
    ensures RootBlock(ColorPalette(baseHue, style), spacing, typography).Success? <==> style == "monochrome"
    ensures style == "duotone" ==> RootBlock(ColorPalette(baseHue, style), spacing, typography) == Failure("accent")
    ensures style != "monochrome" && style != "duotone" ==>
      RootBlock(ColorPalette(baseHue, style), spacing, typography) == Failure("text_primary")
  {
    if style == "monochrome" {
      MonochromeHasKeys(baseHue);
    } else if style == "duotone" {
      DuotoneLacksAccent(baseHue, spacing, typography);
    } else {
      AccentLacksTextPrimary(baseHue, style, spacing, typography);
    }
  }

  /** The duotone palette has the first four colour keys but not "accent". */
  lemma DuotoneLacksAccent(baseHue: int, spacing: map<string, int>,
                           typography: map<string, map<string, string>>)
    ensures RootBlock(ColorPalette(baseHue, "duotone"), spacing, typography) == Failure("accent")
  {
    var p := ColorPalette(baseHue, "duotone");
    var r := RootBlock(p, spacing, typography);
    assert ColorKeys[4] !in p;
    var i :| FirstMissing(p, ColorKeys, i) && ColorKeys[i] == r.error;
    assert ColorKeys[0] in p && ColorKeys[1] in p && ColorKeys[2] in p && ColorKeys[3] in p;
    assert i == 4;
  }

  /** The accent palette has "background" and "surface" but not
      "text_primary". */
  lemma AccentLacksTextPrimary(baseHue: int, style: string, spacing: map<string, int>,
                               typography: map<string, map<string, string>>)
    requires style != "monochrome" && style != "duotone"
    ensures RootBlock(ColorPalette(baseHue, style), spacing, typography) == Failure("text_primary")
  {
    var p := ColorPalette(baseHue, style);
    var r := RootBlock(p, spacing, typography);
    assert ColorKeys[2] !in p;
    var i :| FirstMissing(p, ColorKeys, i) && ColorKeys[i] == r.error;
    assert ColorKeys[0] in p && ColorKeys[1] in p;
    assert i == 2;
  }

  /** The generated spacing scale has every key the CSS reads. */
  lemma SpacingHasKeys(baseUnit: int)
    ensures HasKeys(LayoutSpacing(baseUnit), SpacingKeys)
  {
    var s := LayoutSpacing(baseUnit);
    forall i | 0 <= i < |SpacingKeys| ensures SpacingKeys[i] in s {
    }
  }

  /** The monochrome palette has every colour key the CSS reads. */
  lemma MonochromeHasKeys(baseHue: int)
    ensures HasKeys(ColorPalette(baseHue, "monochrome"), ColorKeys)
  {
    var p := ColorPalette(baseHue, "monochrome");
    forall i | 0 <= i < |ColorKeys| ensures ColorKeys[i] in p {
    }
  }

  /** Each default holds every key the stylesheet looks up. */
  lemma DefaultsComplete()
    ensures HasKeys(ColorPalette(220, "monochrome"), ColorKeys)
    ensures HasKeys(LayoutSpacing(8), SpacingKeys)
    ensures HasTypography(DefaultTypography)
  {
    MonochromeHasKeys(220);
    SpacingHasKeys(8);
  }

  /** With every argument left at `None` the CSS is generated. */
  lemma DefaultCss()
    ensures GenerateCss(None, None, None).Success?
  {
    SpacingHasKeys(8);
    MonochromeHasKeys(220);
    assert HasTypography(DefaultTypography);
  }

  /** Leaving an argument at `None` is the same as passing the default
      generator's output: `generate_minimal_color_palette()`,
      `create_typography_system()` and `optimize_layout_spacing()`. */
  lemma NoneMeansDefaults()
    ensures GenerateCss(None, None, None)
         == GenerateCss(Some(ColorPalette(220, "monochrome")), Some(DefaultTypography), Some(LayoutSpacing(8)))
  {
  }
}

=== FILE: numerals.dfy ===
/** Decimal numerals: Python's `str.isdigit`, `int(...)`, `str(n)` and the
    `{n:0Wd}` format, restricted to ASCII digits. */
module Numerals {
  import opened Wrappers
  import opened Strings

  predicate IsDigit(c: char) {
    '0' <= c <= '9'
  }

  predicate AllDigits(s: string) {
    forall i :: 0 <= i < |s| ==> IsDigit(s[i])
  }

  /** `s.isdigit()`: non-empty and every character a digit. */
  predicate IsDigits(s: string) {
    |s| > 0 && AllDigits(s)
  }

  function DigitValue(c: char): (d: nat)
    requires IsDigit(c)
    ensures d < 10
  {
    c as int - '0' as int
  }

  function DigitChar(d: nat): (c: char)
    requires d < 10
    ensures IsDigit(c) && DigitValue(c) == d
  {
    ('0' as int + d) as char
  }

  /** `int(s)` for a digit string (leading zeros allowed); 0 for "". */
  function DigitsValue(s: string): nat
    requires AllDigits(s)
    decreases |s|
  {
    if |s| == 0 then 0 else DigitsValue(s[..|s| - 1]) * 10 + DigitValue(s[|s| - 1])
  }

  /** `str(n)` for a natural number: its shortest decimal numeral. */
  function NatToDigits(n: nat): (r: string)
    ensures IsDigits(r)
    ensures DigitsValue(r) == n
    ensures r[0] == '0' ==> r == "0"
  {
    if n < 10 then [DigitChar(n)]
    else
      var r := NatToDigits(n / 10) + [DigitChar(n % 10)];
      assert r[..|r| - 1] == NatToDigits(n / 10);
      r
  }

  function Zeros(k: nat): (z: string)
    ensures |z| == k && AllDigits(z)
    ensures forall i :: 0 <= i < k ==> z[i] == '0'
  {
    if k == 0 then "" else Zeros(k - 1) + "0"
  }

  /** Leading zeros do not change the value of a numeral. */
  lemma {:induction false} LeadingZeros(k: nat, s: string)
    requires AllDigits(s)
    ensures AllDigits(Zeros(k) + s)
    ensures DigitsValue(Zeros(k) + s) == DigitsValue(s)
    decreases |s|
  {
    var t := Zeros(k) + s;
    if |s| == 0 {
      assert t == Zeros(k);
      ZerosValue(k);
    } else {
      var init := s[..|s| - 1];
      assert t[..|t| - 1] == Zeros(k) + init;
      LeadingZeros(k, init);
    }
  }

  lemma {:induction false} ZerosValue(k: nat)
    ensures DigitsValue(Zeros(k)) == 0
  {
    if k > 0 {
      var z := Zeros(k);
      assert z[..k - 1] == Zeros(k - 1);
      ZerosValue(k - 1);
      assert DigitValue(z[k - 1]) == 0;
      assert DigitsValue(z) == DigitsValue(z[..k - 1]) * 10 + DigitValue(z[k - 1]);
    }
  }

  /** `f"{n:0{width}d}"` for n >= 0: the numeral of `n`, left-padded with
      zeros to at least `width` characters. */
  function ZeroPad(n: nat, width: nat): (r: string)
    ensures IsDigits(r)
    ensures DigitsValue(r) == n
    ensures |r| == if |NatToDigits(n)| < width then width else |NatToDigits(n)|
    ensures EndsWith(r, NatToDigits(n))
  {
    var digits := NatToDigits(n);
    var pad := if |digits| < width then width - |digits| else 0;
    LeadingZeros(pad, digits);
    var r := Zeros(pad) + digits;
    assert r[|r| - |digits|..] == digits;
    r
  }

  /** `str(i)` for any integer. */
  function IntToString(i: int): string {
    if i < 0 then "-" + NatToDigits(-i) else NatToDigits(i)
  }

  /** Reads back an optional minus sign followed by a non-empty digit string. */
  function ParseInt(s: string): Option<int> {
    if |s| > 0 && s[0] == '-' then
      if IsDigits(s[1..]) then Some(0 - DigitsValue(s[1..])) else None
    else if IsDigits(s) then Some(DigitsValue(s))
    else None
  }

  /** `str` and `ParseInt` are inverse; the numeral holds only a sign and digits. */
  lemma IntToStringRoundTrip(i: int)
    ensures ParseInt(IntToString(i)) == Some(i)
    ensures forall k :: 0 <= k < |IntToString(i)| ==> IntToString(i)[k] == '-' || IsDigit(IntToString(i)[k])
  {
    if i < 0 {
      assert IntToString(i)[1..] == NatToDigits(-i);
    }
  }
}

=== FILE: strings.dfy ===
/** String helpers with Python `str` semantics, restricted to ASCII. */
module Strings {

  /** `s.startswith(prefix)` */
  predicate StartsWith(s: string, prefix: string) {
    |prefix| <= |s| && s[..|prefix|] == prefix
  }

  /** `s.endswith(suffix)` */
  predicate EndsWith(s: string, suffix: string) {
    |suffix| <= |s| && s[|s| - |suffix|..] == suffix
  }

  /** `t in s` for strings: `t` occurs as a contiguous substring of `s`. */
  predicate Contains(s: string, t: string) {
    exists i :: 0 <= i <= |s| - |t| && OccursAt(s, t, i)
  }

  /** `t` occurs in `s` starting at index `i`. */
  predicate OccursAt(s: string, t: string, i: int) {
    0 <= i <= |s| - |t| && s[i..i + |t|] == t
  }

  /** `s.split(c)[0]`: the text before the first `c`, or all of `s` when
      `c` does not occur. */
  function PrefixBefore(s: string, c: char): (p: string)
    ensures p <= s
    ensures c !in p
    ensures |p| < |s| ==> s[|p|] == c
  {
    if |s| == 0 || s[0] == c then "" else [s[0]] + PrefixBefore(s[1..], c)
  }

  /** The three properties of `PrefixBefore` determine it: the prefix that
      stops at the first `c` is unique. */
  lemma PrefixBeforeUnique(s: string, c: char, p: string)
    requires p <= s && c !in p
    requires |p| < |s| ==> s[|p|] == c
    ensures PrefixBefore(s, c) == p
  {
  }

  /** Splitting `p + [c] + rest` at the first `c` returns `p` when `p`
      contains no `c`. */
  lemma PrefixBeforeJoined(p: string, c: char, rest: string)
    requires c !in p
    ensures PrefixBefore(p + [c] + rest, c) == p
  {
    var s := p + [c] + rest;
    assert s[|p|] == c;
    assert p <= s;
    PrefixBeforeUnique(s, c, p);
  }

  /** `s.split(c)`: every maximal run between separators, so a string with
      k separators has k + 1 parts (some possibly empty). */
  function Split(s: string, c: char): (parts: seq<string>)
    ensures |parts| >= 1
    ensures forall i :: 0 <= i < |parts| ==> c !in parts[i]
    decreases |s|
  {
    var p := PrefixBefore(s, c);
    if |p| == |s| then [s] else [p] + Split(s[|p| + 1..], c)
  }

  /** `c.join(parts)` */
  function Join(parts: seq<string>, c: char): string
    requires |parts| >= 1
  {
    if |parts| == 1 then parts[0] else parts[0] + [c] + Join(parts[1..], c)
  }

  /** Splitting loses nothing: joining the parts back with the separator
      restores the string. */
  lemma {:induction false} JoinSplit(s: string, c: char)
    ensures Join(Split(s, c), c) == s
    decreases |s|
  {
    var p := PrefixBefore(s, c);
    if |p| == |s| {
      assert p == s;
    } else {
      var rest := s[|p| + 1..];
      JoinSplit(rest, c);
      assert Split(s, c) == [p] + Split(rest, c);
      assert s == p + [c] + rest;
    }
  }

  /** `c.lower()` on ASCII letters; every other character is kept. */
  function LowerAscii(c: char): (l: char)
    ensures !('A' <= l <= 'Z')
    ensures 'a' <= l <= 'z' <==> 'A' <= c <= 'Z' || 'a' <= c <= 'z'
    ensures !('A' <= c <= 'Z') ==> l == c
    ensures 'A' <= c <= 'Z' ==> l as int == c as int + 32
  {
    if 'A' <= c <= 'Z' then (c as int - 'A' as int + 'a' as int) as char else c
  }
}

=== FILE: syntax.dfy ===
/** The part of a parsed Python module that the docstring checker looks at,
    and `ast.walk` over it. */
module Syntax {
  import opened Wrappers

  /** A syntax-tree node. `Function` stands for both `def` and `async def`;
      `doc` is what `ast.get_docstring` returns for the node (`None` when its
      body does not open with a string literal). `Other` is any other node
      (module, statement, expression), with the nodes `ast.iter_child_nodes`
      yields for it. A definition's children are its body: its arguments,
      decorators and bases are expressions, which never contain a
      definition, so leaving them out changes no report. */
  datatype Node =
    | Function(name: string, line: nat, doc: Option<string>, body: seq<Node>)
    | Class(name: string, line: nat, doc: Option<string>, body: seq<Node>)
    | Other(children: seq<Node>)

  function Children(n: Node): seq<Node> {
    match n
    case Function(_, _, _, body) => body
    case Class(_, _, _, body) => body
    case Other(children) => children
  }

  /** Number of nodes in a tree. */
  function Size(n: Node): (s: nat)
    ensures s == 1 + SizeAll(Children(n))
  {
    match n
    case Function(_, _, _, body) => 1 + SizeAll(body)
    case Class(_, _, _, body) => 1 + SizeAll(body)
    case Other(children) => 1 + SizeAll(children)
  }

  /** Number of nodes in a forest. */
  function SizeAll(ns: seq<Node>): nat {
    if |ns| == 0 then 0 else Size(ns[0]) + SizeAll(ns[1..])
  }

  lemma {:induction false} SizeAllAppend(a: seq<Node>, b: seq<Node>)
    ensures SizeAll(a + b) == SizeAll(a) + SizeAll(b)
    decreases |a|
  {
    if |a| == 0 {
      assert a + b == b;
    } else {
      assert (a + b)[0] == a[0];
      assert (a + b)[1..] == a[1..] + b;
      SizeAllAppend(a[1..], b);
    }
  }

  /** `ast.walk`: breadth-first from a queue, each node yielded as it leaves
      the front and its children appended at the back. */
  function Walk(queue: seq<Node>): (visited: seq<Node>)
    ensures |visited| == SizeAll(queue)
    decreases SizeAll(queue)
  {
    if |queue| == 0 then []
    else
      var next := queue[1..] + Children(queue[0]);
      SizeAllAppend(queue[1..], Children(queue[0]));
      [queue[0]] + Walk(next)
  }

  /** Every node of a tree, root first, then each child's subtree in turn:
      a reference enumeration independent of the walk's order. */
  function Nodes(n: Node): seq<Node>
    decreases n, 1
  {
    [n] + NodesAll(Children(n))
  }

  function NodesAll(ns: seq<Node>): seq<Node>
    decreases ns, 0
  {
    if |ns| == 0 then [] else Nodes(ns[0]) + NodesAll(ns[1..])
  }

  lemma {:induction false} NodesAllAppend(a: seq<Node>, b: seq<Node>)
    ensures NodesAll(a + b) == NodesAll(a) + NodesAll(b)
    decreases |a|
  {
    if |a| == 0 {
      assert a + b == b;
    } else {
      assert (a + b)[0] == a[0];
      assert (a + b)[1..] == a[1..] + b;
      NodesAllAppend(a[1..], b);
    }
  }

  /** The walk visits exactly the nodes of the queued trees, each as often
      as it occurs in them: it is a reordering of `NodesAll`. */
  lemma {:induction false} WalkVisitsAll(queue: seq<Node>)
    ensures multiset(Walk(queue)) == multiset(NodesAll(queue))
    decreases SizeAll(queue)
  {
    if |queue| > 0 {
      var first := queue[0];
      var next := queue[1..] + Children(first);
      SizeAllAppend(queue[1..], Children(first));
      WalkVisitsAll(next);
      NodesAllAppend(queue[1..], Children(first));
      assert Walk(queue) == [first] + Walk(next);
      assert NodesAll(queue) == [first] + NodesAll(Children(first)) + NodesAll(queue[1..]);
    }
  }

  /** The walk of a tree starts at its root and visits every node. */
  lemma WalkTree(t: Node)
    ensures |Walk([t])| == Size(t) && Walk([t])[0] == t
    ensures multiset(Walk([t])) == multiset(Nodes(t))
  {
    WalkVisitsAll([t]);
    assert NodesAll([t]) == Nodes(t) + NodesAll([]);
  }

  /** The direct children of a node of a tree are nodes of that tree. */
  lemma {:induction false} ChildInNodes(ns: seq<Node>, n: Node, c: Node)
    requires n in NodesAll(ns) && c in Children(n)
    ensures c in NodesAll(ns)
    decreases ns, 0
  {
    var first := ns[0];
    NodesAllAppend([first], ns[1..]);
    if n in Nodes(first) {
      ChildInTree(first, n, c);
    } else {
      ChildInNodes(ns[1..], n, c);
    }
  }

  lemma {:induction false} ChildInTree(t: Node, n: Node, c: Node)
    requires n in Nodes(t) && c in Children(n)
    ensures c in Nodes(t)
    decreases t, 1
  {
    if n == t {
      MemberInNodesAll(Children(t), c);
    } else {
      ChildInNodes(Children(t), n, c);
    }
  }

  /** Each tree of a forest is among the forest's nodes. */
  lemma {:induction false} MemberInNodesAll(ns: seq<Node>, c: Node)
    requires c in ns
    ensures c in NodesAll(ns)
    decreases |ns|
  {
    if ns[0] != c {
      MemberInNodesAll(ns[1..], c);
    }
  }
}

=== FILE: wrappers.dfy ===
/** Optional values and success-or-error results, shared by the other modules. */
module Wrappers {

  /** A value that may be absent: a missing dictionary key, a missing
      directory, or an argument left at Python's `None`. */
  datatype Option<+T> = None | Some(value: T) {

    /** The wrapped value, or `default` when absent (Python's `x if x is not None else d`). */
    function GetOr(default: T): T {
      match this
      case Some(v) => v
      case None => default
    }
  }

  /** The outcome of an operation that may raise: `Failure` carries what the
      source would raise. */
  datatype Result<+R, +E> = Success(value: R) | Failure(error: E)
}
